=== FILE: README.md ===
# ocm.py document mapper — a Dafny model

This project models the core of `ocm.py`, a small object–document mapper
built on MongoDB. A `Doc` subclass declares a list of `Field`s. `Doc.new`
coerces raw data into those fields' types, recursing into nested documents
and lists of documents. `Doc._validate` / `Doc.is_valid` check every field
and then run the class's `validate` hook, collecting an error map.
`Doc.save` runs in this order: validate; number the first missing
auto-increment field through `Mgr._nextval`; call `before_save`; number
every auto-increment field that is missing or falsy; write the document;
call `after_save`. `Mgr._nextval` hands out sequence numbers with a
compare-and-set retry loop.

Modules, in dependency order:

- `Wrappers` holds `Option` and `Result`.
- `Values` holds the Python values a document holds, `Doc` (kind, value map, error map), truthiness and `dict.get`.
- `Schema` holds field specs (`Field`, `ListField`, `ListOfDocsField`, `AutoIncField`, `NestedDocField`), classes (`Doc` subclasses with their hooks), `isinstance` and the exceptions.
- `Fields` is `Field.is_valid`.
- `Validation` is `Doc._validate`, `Doc.is_valid` and `Doc.errors`.
- `Construction` is `Doc.new`.
- `Sequences` is `Mgr._nextval`, over an abstract sequences collection with concurrent writers.
- `Lifecycle` is `Doc.save`, with `Mgr.save` as an append to a write log.
- `Scenarios` holds the concrete classes and data of the test suite, with the outcomes the tests assert, derived from the general model.

In these places the model follows the code as written:

- `_nextval` keeps retrying against the value it first read. It never re-reads.
- When retries run out, `_nextval` returns its last candidate and raises nothing.
- A failing nested document records `None` under the field's name. This is the never-set `error` slot of the `NestedDocField`, not the nested document's message.

## Model

| member | source | states |
|---|---|---|
| Fields.IsValid | ocm.py:162-179 | A field is valid iff its error text is empty. It is invalid iff it is required and holds `None`, or its validator returns a message. The required message comes first and the validator's message is appended after it, never replacing it. |
| Fields.RequiredNoneFails | ocm.py:165-169 | A required field holding `None` fails whatever its validator says. Its error is the required message followed by the validator's text. Without `invalid_message` the required message is `"<name> is required"`. |
| Fields.ValidatorMessageAppended | ocm.py:174-177 | A validator message is appended to the error and makes the field invalid. |
| Validation.IsValid | ocm.py:240-242 | `is_valid` raises iff `_validate` raises. Otherwise it stores the new error map on the instance and answers true iff that map is empty. |
| Validation.MergePairs | ocm.py:233-236 | Merging a list of hook pairs: a key is present iff it was already present or some pair names it, and the last pair for a key wins. |
| Validation.LastForSome | ocm.py:235-236 | A key gets a value from the hook's list iff some pair in the list has that key. |
| Validation.LastForIsLast | ocm.py:235-236 | A pair with no later pair for the same key determines that key's value. |
| Validation.CollectRaises | ocm.py:223-229 | The field loop raises iff some field check raises. |
| Validation.CollectKeys | ocm.py:223-229 | The field loop records exactly the names of the failing fields. |
| Validation.CollectValues | ocm.py:223-229 | With distinct names, every failing field records its own message. |
| Validation.CollectEmpty | ocm.py:223-229 | The field loop's map is empty iff every field passes. |
| Validation.MergeKeys | ocm.py:231-238 | The hook adds exactly its own keys to the error map. |
| Validation.ValidateKeys | ocm.py:214-238 | The keys of the error map are the failing fields plus the hook's keys. |
| Validation.FieldErrorsEmpty | ocm.py:223-229 | No field error is recorded iff every field check passes. |
| Validation.NoEntryAllPass | ocm.py:223-229 | An empty field-error map means every field check passed. |
| Validation.AllPassNoEntry | ocm.py:223-229 | Every field check passing means no field error is recorded. |
| Validation.ValidIff | ocm.py:214-242 | When no check raises, the document is valid iff every field passes and the hook reports nothing. |
| Validation.ValidateRaises | ocm.py:223-229 | `_validate` raises iff some field's check raises; the hook never makes it raise. |
| Validation.MergeOutside | ocm.py:231-238 | A field error under a key the hook does not name survives the merge. |
| Validation.FieldErrorsEntry | ocm.py:228-229 | With distinct field names, a failing field's message is recorded under its name. |
| Validation.ValidateFieldEntry | ocm.py:223-238 | With distinct field names, and when the hook does not name the field, a failing field's entry in the final map is the field's `error`. For a plain field that is its `is_valid` text; for a nested field it is `None`. |
| Validation.RequiredFieldReported | ocm.py:223-229 | A missing required field always appears in the errors. With distinct field names, and when the hook does not overwrite it, its message is the required message plus the validator's text. |
| Validation.HookPairsRecorded | ocm.py:232-238 | A tuple from the hook is recorded under its key. Every key of a returned list is recorded with the last message given for it. |
| Validation.HookLastPairWins | ocm.py:234-236 | A hook pair with no later pair for its key is the recorded message. |
| Validation.PassingFieldNotReported | ocm.py:223-229 | With distinct field names, a passing field that the hook does not name has no entry in the errors. |
| Validation.OnlyNestedRaises | ocm.py:223-229 | A class without nested-document fields never raises during validation. |
| Construction.New | ocm.py:367-418 | A class without fields raises `OCMInvalidException`. A returned instance is of the class and keeps every key of the incoming dict. |
| Construction.CoerceFrom | ocm.py:389-414 | The field loop from field `i` keeps every key and changes only the names of fields `i` onward. |
| Construction.CoerceField | ocm.py:389-414 | One field's step keeps every key and changes only that field's own name. |
| Construction.Coerce | ocm.py:398-400 | A value that is already an instance of the field's type is kept unchanged. |
| Construction.NewEach | ocm.py:407-410 | Converting a list of documents gives a list of the same length. |
| Construction.NewEachOk | ocm.py:407-410 | A list of documents converts without raising iff each element's `new` does not raise. |
| Construction.NewEachValues | ocm.py:407-410 | Element `k` of a converted list is the document that `new` built from element `k`, in order. |
| Construction.CoerceFromField | ocm.py:389-414 | With distinct names, a field's final value is the outcome of that field's own step on the incoming data. |
| Construction.CoerceFromOk | ocm.py:389-414 | With distinct names, the field loop raises iff some field's own step raises. |
| Construction.ListOfDocsStepOk | ocm.py:403-410 | A list-of-documents field holding a list converts without raising when every element converts. |
| Construction.NestedStepOk | ocm.py:411-412 | A document-class field holding raw data converts when the nested `new` succeeds, and then holds that nested document. |
| Construction.NewWellTyped | ocm.py:367-418 | `new` does not raise on data whose every field is present with the right type, or absent and needing no conversion, when the class has distinct names and no nested-document field. |
| Construction.NewField | ocm.py:389-414 | With distinct field names, each field of a built instance holds what that field's step made of the incoming data. |
| Construction.NewKeepsExtraKeys | ocm.py:373-374 | Keys of the data that name no field are copied unchanged. |
| Construction.NewAutoIncAbsent | ocm.py:390-393 | With distinct field names, an absent auto-increment field is set to `None`. Its default and type are ignored. |
| Construction.NewKeepsInstance | ocm.py:398-400 | With distinct field names, a present value that already has the field's type is kept as is. |
| Construction.NewDefault | ocm.py:395-396 | With distinct field names, an absent field that is not auto-increment takes its truthy default when that default has the field's type. With a falsy default it stays absent. |
| Construction.NewIntCoercion | ocm.py:401-402 | With distinct field names, an `int` field holding a non-int is replaced by `int(float(x))`. When that conversion raises, `new` raises. |
| Construction.NewNestedDoc | ocm.py:411-412 | With distinct field names, a document-class field holding raw data, not already an instance of the class, holds the nested class's `new` of that data. |
| Construction.NewListOfDocs | ocm.py:403-410 | With distinct field names, a list-of-documents field holding a list holds a list of the same length, each element the element class's `new` of the raw element. |
| Construction.ValidateIgnoresErrors | ocm.py:214-215 | Validation does not depend on the errors a document already carries, because `_validate` starts from an empty map. |
| Construction.NewErrorsAreValidation | ocm.py:417 | The errors of a new instance are exactly what validating it yields. |
| Construction.NewReturnsInvalid | ocm.py:417-418 | `new` returns invalid instances too. When coercion succeeds and no check raises, the result is valid iff every field passes and the hook reports nothing. |
| Construction.NewMissingNestedRaises | ocm.py:224-225 | With distinct field names, a nested-document field absent from the data, with no truthy default, makes `new` raise: validation calls `is_valid` on `None`. |
| Sequences.NextVal | ocm.py:112-138 | Only the requested sequence changes. A sequence the `$gte: 0` lookup misses is created with `lastval` 1, and 1 is returned. With at least one attempt, the number returned exceeds the `lastval` read. |
| Sequences.AttemptsAdvance | ocm.py:130-136 | Each attempt proposes a larger candidate. |
| Sequences.AttemptsFirstHit | ocm.py:130-136 | The loop stops at the first attempt whose conditional update matches. It returns that attempt's candidate, which is also what is stored. |
| Sequences.AttemptsAllMiss | ocm.py:130-138 | When no attempt matches, the loop returns `lastval + retries` and stores nothing of its own. |
| Sequences.NextValFirstHit | ocm.py:127-138 | When attempt `j` is the first whose update matches, `_nextval` returns and stores `lastval + j + 1`. |
| Sequences.NextValExhausted | ocm.py:127-138 | When every attempt misses, `_nextval` returns `lastval + retries`, a number it never stored. The stored `lastval` is the last rival write, and with zero retries it returns the current `lastval`. |
| Sequences.NextValUncontended | ocm.py:127-138 | Without interference the first attempt succeeds: the sequence moves up by one and that number is returned. |
| Sequences.NextValConsecutive | ocm.py:118-138 | Uncontended calls hand out consecutive numbers, starting from 1 for a sequence that does not exist. |
| Sequences.NextValue | ocm.py:112-138 | The `while`/`break` loop as written computes the same number and store as `NextVal`. |
| Lifecycle.Number | ocm.py:290-293 | Numbering a field sets it to the number `_nextval` returns, a positive integer. The sequences become what `_nextval` left, and no other field changes. It makes one allocator call and writes no document. |
| Lifecycle.FirstPass | ocm.py:278-282 | The first loop writes no document and calls the allocator at most once. |
| Lifecycle.SecondPass | ocm.py:290-294 | The second loop writes no document. |
| Lifecycle.Save | ocm.py:266-305 | A save that raises writes nothing. A save returning `True` writes exactly one document. Earlier writes are never changed. |
| Lifecycle.NumberKeepsSettled | ocm.py:290-293 | Numbering a missing or falsy field leaves every truthy value in place. |
| Lifecycle.FirstPassFrame | ocm.py:278-282 | The first loop changes only auto-increment fields and never a truthy value. |
| Lifecycle.SecondPassFrame | ocm.py:290-294 | The second loop changes only auto-increment fields and never a truthy value. |
| Lifecycle.SecondPassNumbersAll | ocm.py:290-294 | After the second loop every auto-increment field holds a truthy value. |
| Lifecycle.FirstPassFirstMissing | ocm.py:278-282 | The first loop numbers only the first auto-increment field missing from the instance, then stops. |
| Lifecycle.FirstPassNoneMissing | ocm.py:278-282 | When no auto-increment field is missing, the first loop does nothing. |
| Lifecycle.SaveRejectsIffInvalid | ocm.py:274-276 | `save` raises `OCMInvalidException` iff some field fails or the hook reports an error. The errors are then recorded on the instance and nothing is written. |
| Lifecycle.SaveRaisesWithValidation | ocm.py:274 | When validation raises, `save` raises the same exception and writes nothing. |
| Lifecycle.SaveVeto | ocm.py:287-288 | For a valid instance, nothing is written iff `before_save` vetoes. The veto returns `False`, and a number the first loop drew stays consumed. |
| Lifecycle.SaveWrites | ocm.py:290-305 | A save that goes through appends one write, to the class's collection. It numbers every auto-increment field, leaves the other fields as they were, and never renumbers a truthy value. It returns whether the instance's errors are empty after `after_save`. Without `after_save` it returns `True` and the instance holds what was written. |
| Lifecycle.SecondPassSingle | ocm.py:290-294 | With field `j` the only auto-increment field, the second loop numbers it iff it is missing or falsy, and changes nothing else. |
| Lifecycle.SecondPassNoneNeeded | ocm.py:290-294 | When no field needs a number, the second loop does nothing. |
| Lifecycle.UncontendedNumber | ocm.py:118-138 | Without interference `_nextval` returns one past the stored `lastval`, or 1 for a sequence the lookup misses, and stores that number. |
| Lifecycle.SaveNumbersNext | ocm.py:278-299 | Without interference, saving a valid instance whose one auto-increment field is missing or falsy writes that field with the next number of its sequence. The sequence is left at that number and the other sequences are untouched. |
| Scenarios.RequiredMessages | tests/test_doc.py:59-64 | The required `fld1` holding `None` fails with `"fld1 is required"`. With a value it passes. |
| Scenarios.CheckedMessages | tests/test_doc.py:43-45 | The validator `f3v` rejects `"bad"` with `"fld4 is not ok"` and accepts `"ok"`. |
| Scenarios.DocFieldsNew | tests/test_doc.py:54-68 | `N.new(d)` keeps `fld1` and `fld4` and fills `fld3` from its default. |
| Scenarios.DocFieldsValid | tests/test_doc.py:70-72 | That instance is valid with no errors. |
| Scenarios.MissingRequiredScenario | tests/test_doc.py:62-64 | Without `fld1` the instance is invalid and `fld1` is reported as required. |
| Scenarios.BadValueScenario | tests/test_doc.py:74-76 | With `fld4 = "bad"`, the validator's message is reported under `fld4`. |
| Scenarios.CustomValidationScenario | tests/test_doc.py:78-107 | A hook returning a tuple, a list of tuples, or a document-dependent tuple records each message under its key. |
| Scenarios.SaveScenario | tests/test_doc.py:109-113 | A valid instance saves with `True` and writes itself once to `test`. |
| Scenarios.VetoScenario | tests/test_doc.py:149-154 | A `before_save` returning `False` makes `save` return `False` and write nothing. |
| Scenarios.InvalidSaveScenario | tests/test_doc.py:115-134 | A failing hook or a missing required field makes `save` raise, write nothing and record the message. |
| Scenarios.NewCounterScenario | tests/test_doc.py:294-309 | `M.new()` sets the auto-increment field to `None`. |
| Scenarios.FirstNumberScenario | tests/test_doc.py:311-313 | The first save against a fresh sequence numbers the field 1. |
| Scenarios.KeepsValueScenario | tests/test_doc.py:316-319 | An existing value, even `-10`, is not renumbered and the sequence is untouched. |
| Scenarios.RenumberScenario | tests/test_doc.py:321-326 | With the field deleted, the next save numbers it 2. |
| Scenarios.NextValScenario | tests/test_mgr.py:142-150 | A fresh sequence starts at 1, and five more calls after `n` end at `n + 5`. |
| Scenarios.ContentionScenario | ocm.py:127-138 | Under contention `_nextval` can return a number another client already holds. With zero retries it returns the current `lastval`. |
| Scenarios.LaxClassValid | ocm.py:223-238 | A class of optional fields without validators and with a silent hook finds no errors in any instance. |
| Scenarios.InnerNew | tests/test_doc.py:418-431 | `N.new` of well-typed data returns a valid `N`. |
| Scenarios.ListOfDocsScenario | tests/test_doc.py:417-459 | Each element of the list-of-documents field becomes an `N`, the plain list is kept, and the instance is valid. |
| Scenarios.NestedScenario | tests/test_doc.py:328-359 | A dict under the nested field becomes an `N`, and the outer instance is valid. |

## Left out

- Connections, pymongo and the database are not modelled. `Mgr.save` is an append to a write log that always succeeds, as the source's returns `True`. `Mgr._nextval` works on a map from sequence name to `lastval`.
- `Mgr.update`, `delete`, `remove`, `get`, `retrieve`, `count`, `find` and the class-level helpers that wrap them are not modelled. They only forward to the database.
- `Doc.__getattr__` / `__setattr__` attribute access is not modelled. The model reads and writes the value map directly.
- `RefField` is not modelled. No core operation treats it differently from a plain field.
- `NestedDocField.is_valid` is not modelled. `_validate` never calls it: it calls the nested document's own `is_valid`.
- The `mgr` of a class is not modelled. `_nextval` is always reachable, whereas a class without a manager would raise on `None`.
- The class-level `fields` list and `_errors` dict are immutable values here. A field's `error` slot is returned rather than stored.
- Classes are values, so a class cannot contain itself through a nested field.
- A `validate` hook that raises, or returns something other than `None`, a tuple or a list of pairs, is not modelled.
- The `before_save`, `after_save` and `validate` hooks are pure functions. `after_save` returns the instance it may have changed.
- Python's `int(float(x))`, type constructors and iteration of non-list values are an opaque `Conversions` parameter, where `None` means the builtin raised. Their results are not modelled.
- Floats, datetimes and other objects are opaque `VObj` values with a class name and a truth value.
- Validators receive the field's name rather than the `Field` object; the only use in the source is `field.name`.
- Concurrency is modelled only as a schedule of rival `lastval` writes seen by each conditional update. Interleavings of whole saves are not modelled.
- When validation raises partway through, `_validate` leaves the instance with partial errors. This model leaves the instance unchanged.
- A nested document of a class other than the declared one raises `UnknownKind`. The model has no class registry to validate it against its own class.
- Sequences.NextVal: a sequence whose `lastval` is negative is invisible to the lookup, and the model replaces it with `lastval` 1. The source inserts a second record for the same name.
- Lifecycle.Save: the write does not assign an `_id` to the instance.
- Repeated field names: the lemmas that locate one field's entry or value, in `Validation` and `Construction`, assume distinct field names. When two fields share a name, as when the same field list is appended to twice, both act on the same key in turn. In `new` the later field's step sees the earlier one's result. In `_validate` a later failing field's message replaces the earlier one's, and a later passing field leaves it in place. For such classes the model still computes the field loops as the source does, but no lemma states one field's outcome.
- Validation.IsValid: the error maps of nested document instances are not refreshed. `_validate` checks a nested document through its own `is_valid`, which in the source resets and refills that instance's `_errors`. The model returns nested documents unchanged, with whatever error maps they carried. Only the outer instance's errors are replaced, in `is_valid`, `new` and `save`.
- Validation.OnlyNestedRaises: field validators never raise and return a message or `None`. In the source an exception raised by `self.validator(self, value)` would propagate out of `_validate`, `new` and `save`.
- `isinstance` against a document class compares class names, and there are no subclasses. Two classes with the same name are the same class here. The concrete classes of the tests reuse `N` and `M` in separate tests, as the source's tests do.
- Construction.Coerce: every document-class field is built with the class's `new`. The source does so only for direct subclasses of `Doc`. It calls `fldtype(raw)` for indirect subclasses, without coercing or validating.
- Construction.Coerce: every integer is an instance of `int`. A Python 2 `long` would go through `int(float(x))` and could lose precision.

=== FILE: construction.dfy ===
/** `Doc.new`: building an instance from incoming data, applying defaults,
    coercing each field's value to its declared type, and validating. */
module Construction {
  import opened Wrappers
  import opened Values
  import opened Schema
  import Validation

  /** The map `new` starts from: `data` is copied in only when it is truthy
      and a dict (a document counts as a dict). */
  function Initial(data: Value): map<string, Value>
  {
    if Truthy(data) && data.VDict? then data.entries
    else if Truthy(data) && data.VDoc? then data.doc.vals
    else map[]
  }

  /** What `for item in v` visits; `None` when iteration raises. */
  function Elements(v: Value, conv: Conversions): Option<seq<Value>>
  {
    match v
    case VList(xs) => Some(xs)
    case VTuple(xs) => Some(xs)
    case _ => conv.iterate(v)
  }

  /** The entry under `k`, if any. */
  function At(m: map<string, Value>, k: string): Option<Value>
  {
    if k in m then Some(m[k]) else None
  }

  /** The names of the fields from `i` on. */
  function NamesFrom(s: Schema, i: nat): set<string>
  {
    set j | i <= j < |s.fields| :: s.fields[j].name
  }

  /** `cls.new(data)`. A class without fields raises; otherwise the fields
      are coerced in declaration order and the instance is validated, and
      it is returned whether or not it is valid. */
  function New(s: Schema, data: Value, conv: Conversions): (r: Result<Doc, Exc>)
    ensures |s.fields| == 0 ==> r == Err(OCMInvalid)
    ensures r.Ok? ==> r.value.kind == s.name
    ensures r.Ok? ==> Initial(data).Keys <= r.value.vals.Keys
    decreases s, 3, 0
  {
    if |s.fields| == 0 then Err(OCMInvalid)
    else
      match CoerceFrom(s, 0, Initial(data), conv)
      case Err(e) => Err(e)
      case Ok(vals) =>
        match Validation.Validate(s, Doc(s.name, vals, map[]))
        case Err(e) => Err(e)
        case Ok(errs) => Ok(Doc(s.name, vals, errs))
  }

  /** The field loop of `new` from field `i`: it stops at the first field
      whose coercion raises, and touches only the names of fields `i..`. */
  function CoerceFrom(s: Schema, i: nat, vals: map<string, Value>, conv: Conversions): (r: Result<map<string, Value>, Exc>)
    requires i <= |s.fields|
    ensures r.Ok? ==> vals.Keys <= r.value.Keys
    ensures r.Ok? ==> r.value - NamesFrom(s, i) == vals - NamesFrom(s, i)
    decreases s, 2, |s.fields| - i
  {
    if i == |s.fields| then Ok(vals)
    else
      match CoerceField(s, i, vals, conv)
      case Err(e) => Err(e)
      case Ok(next) =>
        var r := CoerceFrom(s, i + 1, next, conv);
        if r.Ok? then
          FrameCompose(vals, next, r.value, s.fields[i].name, NamesFrom(s, i + 1), NamesFrom(s, i));
          r
        else r
  }

  /** One iteration of the field loop: an absent auto-increment field is set
      to `None`; otherwise a truthy default fills an absent name, and a
      present value is coerced. Only the field's own name changes. */
  function CoerceField(s: Schema, i: nat, vals: map<string, Value>, conv: Conversions): (r: Result<map<string, Value>, Exc>)
    requires i < |s.fields|
    ensures r.Ok? ==> vals.Keys <= r.value.Keys
    ensures r.Ok? ==> r.value - {s.fields[i].name} == vals - {s.fields[i].name}
    decreases s, 1, 1
  {
    var f := s.fields[i];
    if f.kind.AutoInc? && f.name !in vals then Ok(vals[f.name := VNone])
    else
      var filled := if Truthy(f.default) && f.name !in vals then vals[f.name := f.default] else vals;
      if f.name !in filled then Ok(filled)
      else
        match Coerce(s, i, filled[f.name], conv)
        case Err(e) => Err(e)
        case Ok(w) => Ok(filled[f.name := w])
  }

  /** The coercion of a present value of field `i`: kept when it already has
      the field's type; `int(float(v))` for an `int` field; each element
      through `new` for a list of documents; `new` for a document class;
      the type's constructor otherwise. */
  function Coerce(s: Schema, i: nat, v: Value, conv: Conversions): (r: Result<Value, Exc>)
    requires i < |s.fields|
    ensures IsInstance(v, s.fields[i].ftype) ==> r == Ok(v)
    decreases s, 1, 0
  {
    var f := s.fields[i];
    if IsInstance(v, f.ftype) then Ok(v)
    else if f.ftype.TInt? then
      match conv.toInt(v)
      case None => Err(ConversionFailed)
      case Some(n) => Ok(VInt(n))
    else if f.kind.ListOfDocs? then
      match Elements(v, conv)
      case None => Err(ConversionFailed)
      case Some(items) =>
        if f.ftype.TDoc? then
          assert f.ftype.schema < f.ftype < f < s;
          match NewEach(f.ftype.schema, items, conv)
          case Err(e) => Err(e)
          case Ok(docs) => Ok(VList(docs))
        else if |items| == 0 then Ok(VList([]))
        else Err(AttributeError)
    else if f.ftype.TDoc? then
      assert f.ftype.schema < f.ftype < f < s;
      match New(f.ftype.schema, v, conv)
      case Err(e) => Err(e)
      case Ok(d) => Ok(VDoc(d))
    else
      match conv.construct(f.ftype, v)
      case None => Err(ConversionFailed)
      case Some(w) => Ok(w)
  }

  /** `[n.new(item) for item in items]`, stopping at the first that raises. */
  function NewEach(n: Schema, items: seq<Value>, conv: Conversions): (r: Result<seq<Value>, Exc>)
    ensures r.Ok? ==> |r.value| == |items|
    decreases n, 4, |items|
  {
    if |items| == 0 then Ok([])
    else
      match New(n, items[0], conv)
      case Err(e) => Err(e)
      case Ok(d) =>
        match NewEach(n, items[1..], conv)
        case Err(e) => Err(e)
        case Ok(rest) => Ok([VDoc(d)] + rest)
  }

  /** A list of documents raises iff the `new` of some element raises. */
  lemma {:induction false} NewEachOk(n: Schema, items: seq<Value>, conv: Conversions)
    ensures NewEach(n, items, conv).Ok? <==> forall j :: 0 <= j < |items| ==> New(n, items[j], conv).Ok?
    decreases |items|
  {
    if |items| > 0 {
      NewEachOk(n, items[1..], conv);
      if NewEach(n, items, conv).Ok? {
        forall j | 0 < j < |items|
          ensures New(n, items[j], conv).Ok?
        {
          assert items[j] == items[1..][j - 1];
        }
      } else if New(n, items[0], conv).Ok? {
        var j :| 0 <= j < |items[1..]| && !New(n, items[1..][j], conv).Ok?;
        assert items[1..][j] == items[j + 1];
      }
    }
  }

  /** Every element of a list of documents is converted in place, in order. */
  lemma {:induction false} NewEachValues(n: Schema, items: seq<Value>, conv: Conversions)
    ensures NewEach(n, items, conv).Ok? ==>
      forall j :: 0 <= j < |items| ==>
        New(n, items[j], conv).Ok? && NewEach(n, items, conv).value[j] == VDoc(New(n, items[j], conv).value)
    decreases |items|
  {
    var r := NewEach(n, items, conv);
    if |items| > 0 && r.Ok? {
      NewEachValues(n, items[1..], conv);
      forall j | 0 < j < |items|
        ensures New(n, items[j], conv).Ok? && r.value[j] == VDoc(New(n, items[j], conv).value)
      {
        assert items[j] == items[1..][j - 1];
      }
    }
  }

  /** Two steps that each change only their own names together change only
      the union of those names. */
  lemma FrameCompose(m1: map<string, Value>, m2: map<string, Value>, m3: map<string, Value>, a: string, rest: set<string>, all: set<string>)
    requires m2 - {a} == m1 - {a} && m3 - rest == m2 - rest
    requires all == {a} + rest
    ensures m3 - all == m1 - all
  {
    forall k | k !in all
      ensures k in m3 <==> k in m1
      ensures k in m3 ==> m3[k] == m1[k]
    {
      assert k in m3 <==> k in m3 - rest;
      assert k in m2 <==> k in m2 - rest;
      assert k in m2 <==> k in m2 - {a};
      assert k in m1 <==> k in m1 - {a};
      if k in m3 {
        assert (m3 - rest)[k] == m3[k];
        assert (m2 - rest)[k] == m2[k];
        assert (m2 - {a})[k] == m2[k];
        assert (m1 - {a})[k] == m1[k];
      }
    }
  }

  /** Two maps that differ only inside `names` agree outside it. */
  lemma AtOutside(m1: map<string, Value>, m2: map<string, Value>, names: set<string>, k: string)
    requires m1 - names == m2 - names && k !in names
    ensures At(m1, k) == At(m2, k)
  {
    assert k in m1 <==> k in m1 - names;
    assert k in m2 <==> k in m2 - names;
    if k in m1 {
      assert (m1 - names)[k] == m1[k];
      assert (m2 - names)[k] == m2[k];
    }
  }

  /** A field's step depends only on that field's own entry. */
  lemma CoerceFieldLocal(s: Schema, i: nat, v1: map<string, Value>, v2: map<string, Value>, conv: Conversions)
    requires i < |s.fields|
    requires At(v1, s.fields[i].name) == At(v2, s.fields[i].name)
    ensures CoerceField(s, i, v1, conv).Ok? <==> CoerceField(s, i, v2, conv).Ok?
    ensures CoerceField(s, i, v1, conv).Ok? ==>
      At(CoerceField(s, i, v1, conv).value, s.fields[i].name) == At(CoerceField(s, i, v2, conv).value, s.fields[i].name)
  {
  }

  /** With distinct field names, the loop's final entry for field `j` is the
      outcome of field `j`'s own step on the entry it started with. */
  lemma {:induction false} CoerceFromField(s: Schema, i: nat, vals: map<string, Value>, conv: Conversions, j: nat)
    requires UniqueNames(s)
    requires i <= j < |s.fields|
    requires CoerceFrom(s, i, vals, conv).Ok?
    ensures CoerceField(s, j, vals, conv).Ok?
    ensures At(CoerceFrom(s, i, vals, conv).value, s.fields[j].name) == At(CoerceField(s, j, vals, conv).value, s.fields[j].name)
    decreases j - i
  {
    var name := s.fields[j].name;
    var next := CoerceField(s, i, vals, conv);
    assert next.Ok?;
    var out := CoerceFrom(s, i + 1, next.value, conv);
    assert CoerceFrom(s, i, vals, conv) == out;
    if i == j {
      assert name !in NamesFrom(s, i + 1);
      AtOutside(out.value, next.value, NamesFrom(s, i + 1), name);
    } else {
      CoerceFromField(s, i + 1, next.value, conv, j);
      assert s.fields[i].name != name;
      AtOutside(next.value, vals, {s.fields[i].name}, name);
      CoerceFieldLocal(s, j, next.value, vals, conv);
    }
  }

  /** With distinct field names, the field loop raises iff the step of
      some field, applied to the incoming data, raises. */
  lemma {:induction false} CoerceFromOk(s: Schema, i: nat, vals: map<string, Value>, conv: Conversions)
    requires UniqueNames(s) && i <= |s.fields|
    ensures CoerceFrom(s, i, vals, conv).Ok? <==>
      forall j :: i <= j < |s.fields| ==> CoerceField(s, j, vals, conv).Ok?
    decreases |s.fields| - i
  {
    if CoerceFrom(s, i, vals, conv).Ok? {
      forall j | i <= j < |s.fields|
        ensures CoerceField(s, j, vals, conv).Ok?
      {
        CoerceFromField(s, i, vals, conv, j);
      }
    } else if i < |s.fields| && CoerceField(s, i, vals, conv).Ok? {
      var next := CoerceField(s, i, vals, conv).value;
      assert CoerceFrom(s, i, vals, conv) == CoerceFrom(s, i + 1, next, conv);
      CoerceFromOk(s, i + 1, next, conv);
      var j :| i + 1 <= j < |s.fields| && !CoerceField(s, j, next, conv).Ok?;
      assert s.fields[i].name != s.fields[j].name;
      AtOutside(next, vals, {s.fields[i].name}, s.fields[j].name);
      CoerceFieldLocal(s, j, next, vals, conv);
    } else if i < |s.fields| {
      assert CoerceFrom(s, i, vals, conv).Err?;
      assert !CoerceField(s, i, vals, conv).Ok?;
    }
  }

  /** A field whose incoming entry needs no conversion: it is present with
      the field's type, or absent and filled by nothing that needs one. */
  predicate Ready(f: FieldSpec, vals: map<string, Value>)
  {
    match At(vals, f.name)
    case Some(v) => IsInstance(v, f.ftype)
    case None => f.kind.AutoInc? || !Truthy(f.default) || IsInstance(f.default, f.ftype)
  }

  /** A list-of-documents field holding a list converts without raising
      when every element does. */
  lemma ListOfDocsStepOk(s: Schema, i: nat, vals: map<string, Value>, conv: Conversions)
    requires i < |s.fields| && s.fields[i].kind.ListOfDocs? && s.fields[i].ftype.TDoc?
    requires s.fields[i].name in vals && vals[s.fields[i].name].VList?
    requires NewEach(s.fields[i].ftype.schema, vals[s.fields[i].name].items, conv).Ok?
    ensures CoerceField(s, i, vals, conv).Ok?
  {
  }

  /** A document-class field holding something else converts through
      `new` of that class, without raising when that `new` does not. */
  lemma NestedStepOk(s: Schema, i: nat, vals: map<string, Value>, conv: Conversions)
    requires i < |s.fields| && !s.fields[i].kind.ListOfDocs? && s.fields[i].ftype.TDoc?
    requires s.fields[i].name in vals && !IsInstance(vals[s.fields[i].name], s.fields[i].ftype)
    requires New(s.fields[i].ftype.schema, vals[s.fields[i].name], conv).Ok?
    ensures CoerceField(s, i, vals, conv).Ok?
    ensures At(CoerceField(s, i, vals, conv).value, s.fields[i].name) ==
      Some(VDoc(New(s.fields[i].ftype.schema, vals[s.fields[i].name], conv).value))
  {
  }

  /** Data that already matches the declared types, for a class without
      nested-document fields, never makes `new` raise. */
  lemma NewWellTyped(s: Schema, data: Value, conv: Conversions)
    requires UniqueNames(s) && |s.fields| > 0
    requires forall j :: 0 <= j < |s.fields| ==> Ready(s.fields[j], Initial(data))
    requires forall j :: 0 <= j < |s.fields| ==> !s.fields[j].kind.NestedDoc?
    ensures New(s, data, conv).Ok?
  {
    forall j | 0 <= j < |s.fields|
      ensures CoerceField(s, j, Initial(data), conv).Ok?
    {
      assert Ready(s.fields[j], Initial(data));
    }
    CoerceFromOk(s, 0, Initial(data), conv);
    var vals := CoerceFrom(s, 0, Initial(data), conv).value;
    forall j | 0 <= j < |s.fields|
      ensures Validation.CheckField(s, j, vals).Ok?
    {
      assert !s.fields[j].kind.NestedDoc?;
    }
    NewReturnsInvalid(s, data, conv, vals);
  }

  /** With distinct field names, each field of an instance `new` returns
      holds what that field's own step made of the incoming entry. */
  lemma NewField(s: Schema, data: Value, conv: Conversions, j: nat)
    requires UniqueNames(s)
    requires New(s, data, conv).Ok? && j < |s.fields|
    ensures CoerceField(s, j, Initial(data), conv).Ok?
    ensures At(New(s, data, conv).value.vals, s.fields[j].name) ==
            At(CoerceField(s, j, Initial(data), conv).value, s.fields[j].name)
  {
    assert CoerceFrom(s, 0, Initial(data), conv).Ok?;
    CoerceFromField(s, 0, Initial(data), conv, j);
  }

  /** Keys of the incoming data that name no field are kept as they are. */
  lemma NewKeepsExtraKeys(s: Schema, data: Value, conv: Conversions, k: string)
    requires New(s, data, conv).Ok?
    requires forall j :: 0 <= j < |s.fields| ==> s.fields[j].name != k
    ensures At(New(s, data, conv).value.vals, k) == At(Initial(data), k)
  {
    var out := CoerceFrom(s, 0, Initial(data), conv);
    assert out.Ok? && out.value == New(s, data, conv).value.vals;
    AtOutside(out.value, Initial(data), NamesFrom(s, 0), k);
  }

  /** An auto-increment field missing from the data is set to `None`. */
  lemma NewAutoIncAbsent(s: Schema, data: Value, conv: Conversions, j: nat)
    requires UniqueNames(s)
    requires New(s, data, conv).Ok? && j < |s.fields|
    requires s.fields[j].kind.AutoInc? && s.fields[j].name !in Initial(data)
    ensures At(New(s, data, conv).value.vals, s.fields[j].name) == Some(VNone)
  {
    NewField(s, data, conv, j);
  }

  /** A value that already has the field's type is kept unchanged. */
  lemma NewKeepsInstance(s: Schema, data: Value, conv: Conversions, j: nat)
    requires UniqueNames(s)
    requires New(s, data, conv).Ok? && j < |s.fields|
    requires s.fields[j].name in Initial(data)
    requires IsInstance(Initial(data)[s.fields[j].name], s.fields[j].ftype)
    ensures At(New(s, data, conv).value.vals, s.fields[j].name) == Some(Initial(data)[s.fields[j].name])
  {
    NewField(s, data, conv, j);
  }

  /** A missing non-auto-increment field gets its default when the default
      is truthy (and of the field's type), and stays missing when it is not. */
  lemma NewDefault(s: Schema, data: Value, conv: Conversions, j: nat)
    requires UniqueNames(s)
    requires New(s, data, conv).Ok? && j < |s.fields|
    requires !s.fields[j].kind.AutoInc? && s.fields[j].name !in Initial(data)
    ensures Truthy(s.fields[j].default) && IsInstance(s.fields[j].default, s.fields[j].ftype) ==>
      At(New(s, data, conv).value.vals, s.fields[j].name) == Some(s.fields[j].default)
    ensures !Truthy(s.fields[j].default) ==> s.fields[j].name !in New(s, data, conv).value.vals
  {
    NewField(s, data, conv, j);
  }

  /** An `int` field holding a value of another type gets `int(float(v))`;
      when that conversion raises, so does `new`. */
  lemma NewIntCoercion(s: Schema, data: Value, conv: Conversions, j: nat)
    requires UniqueNames(s)
    requires j < |s.fields| && s.fields[j].ftype.TInt?
    requires s.fields[j].name in Initial(data)
    requires !IsInstance(Initial(data)[s.fields[j].name], TInt)
    ensures conv.toInt(Initial(data)[s.fields[j].name]).None? ==> New(s, data, conv).Err?
    ensures New(s, data, conv).Ok? ==>
      At(New(s, data, conv).value.vals, s.fields[j].name) == Some(VInt(conv.toInt(Initial(data)[s.fields[j].name]).value))
  {
    if New(s, data, conv).Ok? {
      NewField(s, data, conv, j);
    }
  }

  /** A document-class field holding something other than an instance of
      that class is replaced by `new` of the class applied to the value. */
  lemma NewNestedDoc(s: Schema, data: Value, conv: Conversions, j: nat)
    requires UniqueNames(s)
    requires New(s, data, conv).Ok? && j < |s.fields|
    requires s.fields[j].ftype.TDoc? && !s.fields[j].kind.ListOfDocs?
    requires s.fields[j].name in Initial(data)
    requires !IsInstance(Initial(data)[s.fields[j].name], s.fields[j].ftype)
    ensures New(s.fields[j].ftype.schema, Initial(data)[s.fields[j].name], conv).Ok?
    ensures At(New(s, data, conv).value.vals, s.fields[j].name) ==
      Some(VDoc(New(s.fields[j].ftype.schema, Initial(data)[s.fields[j].name], conv).value))
  {
    NewField(s, data, conv, j);
  }

  /** A list-of-documents field holding a list becomes the list of `new`
      applied to each element, in order. */
  lemma NewListOfDocs(s: Schema, data: Value, conv: Conversions, j: nat)
    requires UniqueNames(s)
    requires New(s, data, conv).Ok? && j < |s.fields|
    requires s.fields[j].kind.ListOfDocs? && s.fields[j].ftype.TDoc?
    requires s.fields[j].name in Initial(data) && Initial(data)[s.fields[j].name].VList?
    ensures var xs := Initial(data)[s.fields[j].name].items;
      var r := At(New(s, data, conv).value.vals, s.fields[j].name);
      r.Some? && r.value.VList? && |r.value.items| == |xs| &&
      forall k :: 0 <= k < |xs| ==>
        New(s.fields[j].ftype.schema, xs[k], conv).Ok? &&
        r.value.items[k] == VDoc(New(s.fields[j].ftype.schema, xs[k], conv).value)
  {
    NewField(s, data, conv, j);
    NewEachOk(s.fields[j].ftype.schema, Initial(data)[s.fields[j].name].items, conv);
    NewEachValues(s.fields[j].ftype.schema, Initial(data)[s.fields[j].name].items, conv);
  }

  /** Validation never depends on the errors a document already carries. */
  lemma ValidateIgnoresErrors(s: Schema, d: Doc, e: Errors)
    ensures Validation.Validate(s, d) == Validation.Validate(s, d.(errors := e))
  {
    assert d.(errors := e).vals == d.vals;
  }

  /** The returned instance carries the outcome of validating itself. */
  lemma NewErrorsAreValidation(s: Schema, data: Value, conv: Conversions)
    requires New(s, data, conv).Ok?
    ensures Validation.Validate(s, New(s, data, conv).value) == Ok(New(s, data, conv).value.errors)
  {
    var d := New(s, data, conv).value;
    ValidateIgnoresErrors(s, d, map[]);
  }

  /** Invalid data does not make `new` raise: once coercion succeeds and no
      field check raises, an instance is returned, and it is valid iff every
      field passes and the hook reports nothing. */
  lemma NewReturnsInvalid(s: Schema, data: Value, conv: Conversions, vals: map<string, Value>)
    requires |s.fields| > 0
    requires CoerceFrom(s, 0, Initial(data), conv) == Ok(vals)
    requires forall j :: 0 <= j < |s.fields| ==> Validation.CheckField(s, j, vals).Ok?
    ensures New(s, data, conv).Ok? && Validation.FieldErrors(s, vals).Ok?
    ensures var d := New(s, data, conv).value;
      var fe := Validation.FieldErrors(s, vals).value;
      d.vals == vals &&
      (d.errors == map[] <==> Validation.AllPass(s, vals) && Validation.HookKeys(Validation.HookOf(s, d, fe)) == {})
  {
    var d0 := Doc(s.name, vals, map[]);
    Validation.ValidateRaises(s, d0);
    var d := New(s, data, conv).value;
    assert d == d0.(errors := d.errors);
    assert Validation.FieldErrors(s, vals).Ok?;
    var fe := Validation.FieldErrors(s, vals).value;
    Validation.ValidIff(s, d0, fe);
    assert Validation.HookOf(s, d, fe) == Validation.HookOf(s, d0, fe);
  }

  /** A nested-document field missing from the data (with no truthy
      default) makes `new` raise: validating it calls `is_valid` on `None`. */
  lemma NewMissingNestedRaises(s: Schema, data: Value, conv: Conversions, j: nat)
    requires UniqueNames(s)
    requires j < |s.fields| && s.fields[j].kind.NestedDoc?
    requires s.fields[j].name !in Initial(data) && !Truthy(s.fields[j].default)
    ensures New(s, data, conv).Err?
  {
    var raw := Initial(data);
    if |s.fields| > 0 && CoerceFrom(s, 0, raw, conv).Ok? {
      var vals := CoerceFrom(s, 0, raw, conv).value;
      CoerceFromField(s, 0, raw, conv, j);
      var d0 := Doc(s.name, vals, map[]);
      assert Validation.CheckField(s, j, d0.vals).Err?;
      Validation.ValidateRaises(s, d0);
      assert Validation.Validate(s, d0).Err?;
    }
  }
}

=== FILE: fields.dfy ===
/** `Field.is_valid`: the check of one value against one field spec. */
module Fields {
  import opened Wrappers
  import opened Values
  import opened Schema

  /** The error text and verdict of one `is_valid` call (the source keeps the
      text in the field's `error` slot; here it is returned). */
  datatype Check = Check(valid: bool, error: string)

  /** The message for a required field holding `None`: the field's
      `invalid_message` when truthy, otherwise `"<name> is required"`. */
  function RequiredMessage(f: FieldSpec): string
  {
    match f.invalidMessage
    case Some(m) => if |m| > 0 then m else f.name + " is required"
    case None => f.name + " is required"
  }

  /** What the validator contributes: its message, or the empty string when
      there is no validator or it returned `None`. */
  function ValidatorMessage(f: FieldSpec, v: Value): string
  {
    match f.validator
    case None => ""
    case Some(check) =>
      match check(f.name, v)
      case None => ""
      case Some(m) => m
  }

  /** `Field.is_valid(value)`: a required field holding `None` fails with
      `RequiredMessage`, and a validator message is appended after it; the
      field is valid iff the accumulated text is empty. */
  function IsValid(f: FieldSpec, v: Value): (c: Check)
    ensures c.valid <==> c.error == ""
    ensures c.valid <==> !(f.required && v.VNone?) && ValidatorMessage(f, v) == ""
    ensures f.required && v.VNone? ==> !c.valid && RequiredMessage(f) <= c.error
    ensures !(f.required && v.VNone?) ==> c.error == ValidatorMessage(f, v)
    ensures |ValidatorMessage(f, v)| <= |c.error|
    ensures c.error[|c.error| - |ValidatorMessage(f, v)|..] == ValidatorMessage(f, v)
  {
    var base := if v.VNone? && f.required then RequiredMessage(f) else "";
    var err := base + ValidatorMessage(f, v);
    Check(|err| == 0, err)
  }

  /** A required field holding `None` always fails, whatever its validator
      says, and its error starts with the required message. */
  lemma RequiredNoneFails(f: FieldSpec)
    requires f.required
    ensures !IsValid(f, VNone).valid
    ensures IsValid(f, VNone).error == RequiredMessage(f) + ValidatorMessage(f, VNone)
    ensures f.invalidMessage.None? ==> RequiredMessage(f) == f.name + " is required"
  {
  }

  /** A non-empty validator message is appended, never replacing earlier text:
      the error ends with it and the field is invalid. */
  lemma ValidatorMessageAppended(f: FieldSpec, v: Value, m: string)
    requires f.validator.Some? && f.validator.value(f.name, v) == Some(m) && m != ""
    ensures !IsValid(f, v).valid
    ensures IsValid(f, v).error == (if f.required && v.VNone? then RequiredMessage(f) else "") + m
  {
  }
}

=== FILE: lifecycle.dfy ===
/** `Doc.save`: validate, number auto-increment fields, run the save hooks
    and hand the document to the manager. */
module Lifecycle {
  import opened Wrappers
  import opened Values
  import opened Schema
  import Validation
  import Sequences

  /** The `retries` default of `_nextval`, which `save` relies on. */
  const Retries: nat := 100

  /** A document handed to `mgr.save`: the collection and the value map. */
  datatype Write = Write(collection: string, vals: map<string, Value>)

  /** The database as `save` affects it: the sequences, and the documents
      written, in order. */
  datatype Store = Store(seqs: Sequences.Seqs, writes: seq<Write>)

  /** What `save` leaves behind: the instance, the database, and either the
      value returned or the exception raised. */
  datatype SaveOutcome = SaveOutcome(doc: Doc, store: Store, result: Result<bool, Exc>)

  /** The interference each `_nextval` call of one `save` meets: call `m`
      races with `schedule[m]` (no interference past the end). */
  type Schedule = seq<Sequences.Rivals>

  function RivalsAt(schedule: Schedule, m: nat): Sequences.Rivals
  {
    if m < |schedule| then schedule[m] else []
  }

  /** Where a pass over the fields has got to: the instance, the database,
      and the number of `_nextval` calls made so far. */
  datatype Progress = Progress(doc: Doc, store: Store, calls: nat)

  /** `self[f.name] = self.mgr._nextval(f.seqname)` for auto-increment
      field `f`. */
  function Number(f: FieldSpec, p: Progress, schedule: Schedule): (q: Progress)
    requires f.kind.AutoInc?
    ensures q.store.writes == p.store.writes && q.calls == p.calls + 1
    ensures q.doc.vals - {f.name} == p.doc.vals - {f.name}
    ensures f.name in q.doc.vals && q.doc.vals[f.name].VInt? && q.doc.vals[f.name].i >= 1
    ensures q.doc.kind == p.doc.kind && q.doc.errors == p.doc.errors
    ensures var a := Sequences.NextVal(p.store.seqs, f.kind.seqname, Retries, RivalsAt(schedule, p.calls));
      q.doc.vals[f.name] == VInt(a.value) && q.store.seqs == a.seqs
  {
    var a := Sequences.NextVal(p.store.seqs, f.kind.seqname, Retries, RivalsAt(schedule, p.calls));
    Progress(p.doc.(vals := p.doc.vals[f.name := VInt(a.value)]), p.store.(seqs := a.seqs), p.calls + 1)
  }

  /** The first field loop of `save` from field `i`: only the first
      auto-increment field that is missing is numbered, then the loop
      stops. */
  function FirstPass(s: Schema, i: nat, p: Progress, schedule: Schedule): (q: Progress)
    requires i <= |s.fields|
    ensures q.store.writes == p.store.writes && q.calls <= p.calls + 1
    ensures q.doc.kind == p.doc.kind && q.doc.errors == p.doc.errors
    decreases |s.fields| - i
  {
    if i == |s.fields| then p
    else
      var f := s.fields[i];
      if Missing(f, p.doc.vals) then Number(f, p, schedule)
      else FirstPass(s, i + 1, p, schedule)
  }

  /** An auto-increment field the first loop numbers: missing. */
  predicate Missing(f: FieldSpec, vals: map<string, Value>)
  {
    f.kind.AutoInc? && f.name !in vals
  }

  /** An auto-increment field the second loop numbers: missing or falsy. */
  predicate NeedsNumber(f: FieldSpec, vals: map<string, Value>)
  {
    f.kind.AutoInc? && (f.name !in vals || !Truthy(vals[f.name]))
  }

  /** The second field loop of `save` from field `i`: every auto-increment
      field that is missing or falsy is numbered. */
  function SecondPass(s: Schema, i: nat, p: Progress, schedule: Schedule): (q: Progress)
    requires i <= |s.fields|
    ensures q.store.writes == p.store.writes && q.calls >= p.calls
    ensures q.doc.kind == p.doc.kind && q.doc.errors == p.doc.errors
    decreases |s.fields| - i
  {
    if i == |s.fields| then p
    else
      var f := s.fields[i];
      var p' := if NeedsNumber(f, p.doc.vals) then Number(f, p, schedule) else p;
      SecondPass(s, i + 1, p', schedule)
  }

  /** `d.save()`. Validation raising, or finding errors, raises before
      anything is written; a `before_save` veto returns `False` after the
      first loop; otherwise the document is written once, `after_save`
      runs, and the result reports whether the errors are empty. */
  function Save(s: Schema, d: Doc, st: Store, schedule: Schedule): (o: SaveOutcome)
    ensures o.result.Err? ==> o.store == st
    ensures o.result == Ok(true) ==> |o.store.writes| == |st.writes| + 1
    ensures st.writes <= o.store.writes
  {
    match Validation.Validate(s, d)
    case Err(e) => SaveOutcome(d, st, Err(e))
    case Ok(errs) =>
      var d1 := d.(errors := errs);
      if |errs| > 0 then SaveOutcome(d1, st, Err(OCMInvalid))
      else
        var p := FirstPass(s, 0, Progress(d1, st, 0), schedule);
        if s.beforeSave.Some? && !s.beforeSave.value(p.doc) then SaveOutcome(p.doc, p.store, Ok(false))
        else
          var q := SecondPass(s, 0, p, schedule);
          var written := q.store.(writes := q.store.writes + [Write(s.collection, q.doc.vals)]);
          var d4 := if s.afterSave.Some? then s.afterSave.value(q.doc) else q.doc;
          SaveOutcome(d4, written, Ok(|d4.errors| == 0))
  }

  /** The names of the auto-increment fields. */
  function AutoIncNames(s: Schema): set<string>
  {
    set j | 0 <= j < |s.fields| && s.fields[j].kind.AutoInc? :: s.fields[j].name
  }

  /** `name` is set to a truthy value. */
  predicate Settled(vals: map<string, Value>, name: string)
  {
    name in vals && Truthy(vals[name])
  }

  /** Every settled entry of `a` is in `b` unchanged. */
  ghost predicate KeepsSettled(a: map<string, Value>, b: map<string, Value>)
  {
    forall k :: Settled(a, k) ==> k in b && b[k] == a[k]
  }

  /** Changing one name inside a set changes nothing outside the set. */
  lemma MinusWithin(m1: map<string, Value>, m2: map<string, Value>, a: string, names: set<string>)
    requires m1 - {a} == m2 - {a} && a in names
    ensures m1 - names == m2 - names
  {
    forall k | k !in names
      ensures k in m1 <==> k in m2
      ensures k in m1 ==> m1[k] == m2[k]
    {
      assert k in m1 <==> k in m1 - {a};
      assert k in m2 <==> k in m2 - {a};
      if k in m1 {
        assert (m1 - {a})[k] == m1[k];
        assert (m2 - {a})[k] == m2[k];
      }
    }
  }

  /** Numbering a field that is missing or falsy keeps every settled entry. */
  lemma NumberKeepsSettled(f: FieldSpec, p: Progress, schedule: Schedule)
    requires f.kind.AutoInc? && (f.name !in p.doc.vals || !Truthy(p.doc.vals[f.name]))
    ensures KeepsSettled(p.doc.vals, Number(f, p, schedule).doc.vals)
  {
    var q := Number(f, p, schedule);
    forall k | Settled(p.doc.vals, k)
      ensures k in q.doc.vals && q.doc.vals[k] == p.doc.vals[k]
    {
      assert k != f.name;
      assert k in p.doc.vals - {f.name};
      assert (q.doc.vals - {f.name})[k] == (p.doc.vals - {f.name})[k];
    }
  }

  /** The passes of `save` touch only auto-increment fields, and never an
      entry that is already truthy. */
  lemma {:induction false} FirstPassFrame(s: Schema, i: nat, p: Progress, schedule: Schedule)
    requires i <= |s.fields|
    ensures FirstPass(s, i, p, schedule).doc.vals - AutoIncNames(s) == p.doc.vals - AutoIncNames(s)
    ensures KeepsSettled(p.doc.vals, FirstPass(s, i, p, schedule).doc.vals)
    decreases |s.fields| - i
  {
    if i < |s.fields| {
      var f := s.fields[i];
      if Missing(f, p.doc.vals) {
        MinusWithin(Number(f, p, schedule).doc.vals, p.doc.vals, f.name, AutoIncNames(s));
        NumberKeepsSettled(f, p, schedule);
      } else {
        FirstPassFrame(s, i + 1, p, schedule);
      }
    }
  }

  /** The same for the second loop. */
  lemma {:induction false} SecondPassFrame(s: Schema, i: nat, p: Progress, schedule: Schedule)
    requires i <= |s.fields|
    ensures SecondPass(s, i, p, schedule).doc.vals - AutoIncNames(s) == p.doc.vals - AutoIncNames(s)
    ensures KeepsSettled(p.doc.vals, SecondPass(s, i, p, schedule).doc.vals)
    decreases |s.fields| - i
  {
    if i < |s.fields| {
      var f := s.fields[i];
      var p' := if NeedsNumber(f, p.doc.vals) then Number(f, p, schedule) else p;
      if NeedsNumber(f, p.doc.vals) {
        MinusWithin(p'.doc.vals, p.doc.vals, f.name, AutoIncNames(s));
        NumberKeepsSettled(f, p, schedule);
      }
      SecondPassFrame(s, i + 1, p', schedule);
    }
  }

  /** After the second loop every auto-increment field from `i` on holds a
      truthy value. */
  lemma {:induction false} SecondPassNumbersAll(s: Schema, i: nat, p: Progress, schedule: Schedule, j: nat)
    requires i <= j < |s.fields| && s.fields[j].kind.AutoInc?
    ensures Settled(SecondPass(s, i, p, schedule).doc.vals, s.fields[j].name)
    decreases |s.fields| - i
  {
    var f := s.fields[i];
    var p' := if NeedsNumber(f, p.doc.vals) then Number(f, p, schedule) else p;
    if i == j {
      assert Settled(p'.doc.vals, f.name);
      SecondPassFrame(s, i + 1, p', schedule);
    } else {
      SecondPassNumbersAll(s, i + 1, p', schedule, j);
    }
  }

  /** The first loop numbers the first auto-increment field from `i` that
      is missing, and only that one. */
  lemma {:induction false} FirstPassFirstMissing(s: Schema, i: nat, p: Progress, schedule: Schedule, j: nat)
    requires i <= j < |s.fields| && Missing(s.fields[j], p.doc.vals)
    requires forall l :: i <= l < j ==> !Missing(s.fields[l], p.doc.vals)
    ensures FirstPass(s, i, p, schedule) == Number(s.fields[j], p, schedule)
    decreases j - i
  {
    if i < j {
      assert !Missing(s.fields[i], p.doc.vals);
      FirstPassFirstMissing(s, i + 1, p, schedule, j);
    }
  }

  /** With no auto-increment field missing, the first loop changes
      nothing. */
  lemma {:induction false} FirstPassNoneMissing(s: Schema, i: nat, p: Progress, schedule: Schedule)
    requires i <= |s.fields|
    requires forall l :: i <= l < |s.fields| ==> !Missing(s.fields[l], p.doc.vals)
    ensures FirstPass(s, i, p, schedule) == p
    decreases |s.fields| - i
  {
    if i < |s.fields| {
      assert !Missing(s.fields[i], p.doc.vals);
      FirstPassNoneMissing(s, i + 1, p, schedule);
    }
  }

  /** `save` raises `OCMInvalidException` exactly when validation finds a
      failing field or the hook reports an error; it then records the
      errors on the instance and writes nothing. */
  lemma SaveRejectsIffInvalid(s: Schema, d: Doc, st: Store, schedule: Schedule, fe: Errors)
    requires Validation.FieldErrors(s, d.vals) == Ok(fe)
    ensures var o := Save(s, d, st, schedule);
      (o.result == Err(OCMInvalid) <==>
        !(Validation.AllPass(s, d.vals) && Validation.HookKeys(Validation.HookOf(s, d, fe)) == {})) &&
      (o.result == Err(OCMInvalid) ==> o.store == st && o.doc == d.(errors := Validation.Validate(s, d).value))
  {
    Validation.ValidIff(s, d, fe);
  }

  /** When validation itself raises (a nested field that is not a
      document), `save` raises the same exception and writes nothing. */
  lemma SaveRaisesWithValidation(s: Schema, d: Doc, st: Store, schedule: Schedule, j: nat)
    requires j < |s.fields| && Validation.CheckField(s, j, d.vals).Err?
    ensures Validation.Validate(s, d).Err?
    ensures Save(s, d, st, schedule).result == Err(Validation.Validate(s, d).error)
    ensures Save(s, d, st, schedule).store == st
  {
    Validation.ValidateRaises(s, d);
  }

  /** For a valid instance, nothing is written exactly when `before_save`
      vetoes; the veto returns `False`, yet a number the first loop drew
      stays consumed. */
  lemma SaveVeto(s: Schema, d: Doc, st: Store, schedule: Schedule)
    requires Validation.Validate(s, d) == Ok(map[])
    ensures var p := FirstPass(s, 0, Progress(d.(errors := map[]), st, 0), schedule);
      var o := Save(s, d, st, schedule);
      (o.store.writes == st.writes <==> s.beforeSave.Some? && !s.beforeSave.value(p.doc)) &&
      (s.beforeSave.Some? && !s.beforeSave.value(p.doc) ==> o.result == Ok(false) && o.store == p.store)
  {
    var p := FirstPass(s, 0, Progress(d.(errors := map[]), st, 0), schedule);
    var o := Save(s, d, st, schedule);
    if !(s.beforeSave.Some? && !s.beforeSave.value(p.doc)) {
      assert |o.store.writes| == |st.writes| + 1;
    }
  }

  /** A save that goes through writes the document exactly once, to its
      class's collection. Every auto-increment field then holds a truthy
      value, other fields are as they were, and a truthy value already
      present is never renumbered. */
  lemma SaveWrites(s: Schema, d: Doc, st: Store, schedule: Schedule)
    requires Validation.Validate(s, d) == Ok(map[])
    requires !(s.beforeSave.Some? && !s.beforeSave.value(FirstPass(s, 0, Progress(d.(errors := map[]), st, 0), schedule).doc))
    ensures var o := Save(s, d, st, schedule);
      |o.store.writes| == |st.writes| + 1 &&
      o.store.writes[..|st.writes|] == st.writes &&
      var w := o.store.writes[|st.writes|];
      w.collection == s.collection &&
      (forall j :: 0 <= j < |s.fields| && s.fields[j].kind.AutoInc? ==> Settled(w.vals, s.fields[j].name)) &&
      w.vals - AutoIncNames(s) == d.vals - AutoIncNames(s) &&
      KeepsSettled(d.vals, w.vals) &&
      o.result == Ok(o.doc.errors == map[]) &&
      (s.afterSave.None? ==> o.result == Ok(true) && o.doc.vals == w.vals)
  {
    var p0 := Progress(d.(errors := map[]), st, 0);
    var p := FirstPass(s, 0, p0, schedule);
    var q := SecondPass(s, 0, p, schedule);
    FirstPassFrame(s, 0, p0, schedule);
    SecondPassFrame(s, 0, p, schedule);
    forall j | 0 <= j < |s.fields| && s.fields[j].kind.AutoInc?
      ensures Settled(q.doc.vals, s.fields[j].name)
    {
      SecondPassNumbersAll(s, 0, p, schedule, j);
    }
    var o := Save(s, d, st, schedule);
    assert o.store.writes == st.writes + [Write(s.collection, q.doc.vals)];
  }

  /** With no auto-increment field other than field `j`, the second loop
      numbers field `j` if it needs a number and changes nothing else. */
  lemma {:induction false} SecondPassSingle(s: Schema, i: nat, p: Progress, schedule: Schedule, j: nat)
    requires i <= j < |s.fields| && s.fields[j].kind.AutoInc?
    requires forall l :: 0 <= l < |s.fields| && l != j ==> !s.fields[l].kind.AutoInc?
    ensures SecondPass(s, i, p, schedule) ==
      if NeedsNumber(s.fields[j], p.doc.vals) then Number(s.fields[j], p, schedule) else p
    decreases |s.fields| - i
  {
    if i < j {
      assert !NeedsNumber(s.fields[i], p.doc.vals);
      SecondPassSingle(s, i + 1, p, schedule, j);
    } else {
      var p' := if NeedsNumber(s.fields[j], p.doc.vals) then Number(s.fields[j], p, schedule) else p;
      assert !NeedsNumber(s.fields[j], p'.doc.vals);
      SecondPassNoneNeeded(s, j + 1, p', schedule);
    }
  }

  /** With no field from `i` on needing a number, the second loop changes
      nothing. */
  lemma {:induction false} SecondPassNoneNeeded(s: Schema, i: nat, p: Progress, schedule: Schedule)
    requires i <= |s.fields|
    requires forall l :: i <= l < |s.fields| ==> !NeedsNumber(s.fields[l], p.doc.vals)
    ensures SecondPass(s, i, p, schedule) == p
    decreases |s.fields| - i
  {
    if i < |s.fields| {
      assert !NeedsNumber(s.fields[i], p.doc.vals);
      SecondPassNoneNeeded(s, i + 1, p, schedule);
    }
  }

  /** The number an uncontended `_nextval` hands out: one past the stored
      `lastval`, or 1 for a sequence the lookup does not find. */
  function NextNumber(seqs: Sequences.Seqs, name: string): int
  {
    if Sequences.Live(seqs, name) then seqs[name] + 1 else 1
  }

  /** An uncontended `_nextval` returns `NextNumber` and stores it. */
  lemma UncontendedNumber(seqs: Sequences.Seqs, name: string)
    ensures Sequences.NextVal(seqs, name, Retries, []) == Sequences.Alloc(NextNumber(seqs, name), seqs[name := NextNumber(seqs, name)])
  {
    if Sequences.Live(seqs, name) {
      Sequences.NextValUncontended(seqs, name, Retries);
    }
  }

  /** Without interference, saving a valid instance of a class with one
      auto-increment field that is missing or falsy gives that field the
      next number of its sequence, writes it with that number, and leaves
      the sequence at that number; other sequences are untouched. */
  lemma SaveNumbersNext(s: Schema, d: Doc, st: Store, j: nat)
    requires Validation.Validate(s, d) == Ok(map[])
    requires j < |s.fields| && s.fields[j].kind.AutoInc?
    requires forall l :: 0 <= l < |s.fields| && l != j ==> !s.fields[l].kind.AutoInc?
    requires NeedsNumber(s.fields[j], d.vals)
    requires !(s.beforeSave.Some? && !s.beforeSave.value(FirstPass(s, 0, Progress(d.(errors := map[]), st, 0), []).doc))
    ensures var o := Save(s, d, st, []);
      var name := s.fields[j].name;
      var sq := s.fields[j].kind.seqname;
      var n := NextNumber(st.seqs, sq);
      |o.store.writes| == |st.writes| + 1 &&
      name in o.store.writes[|st.writes|].vals && o.store.writes[|st.writes|].vals[name] == VInt(n) &&
      o.store.seqs == st.seqs[sq := n]
  {
    var f := s.fields[j];
    var p0 := Progress(d.(errors := map[]), st, 0);
    UncontendedNumber(st.seqs, f.kind.seqname);
    var q := Number(f, p0, []);
    assert RivalsAt([], 0) == [];
    if Missing(f, d.vals) {
      forall l | 0 <= l < j
        ensures !Missing(s.fields[l], p0.doc.vals)
      {
        assert !s.fields[l].kind.AutoInc?;
      }
      FirstPassFirstMissing(s, 0, p0, [], j);
      SecondPassSingle(s, 0, q, [], j);
      assert !NeedsNumber(f, q.doc.vals);
      assert SecondPass(s, 0, q, []) == q;
    } else {
      forall l | 0 <= l < |s.fields|
        ensures !Missing(s.fields[l], p0.doc.vals)
      {
        if l != j {
          assert !s.fields[l].kind.AutoInc?;
        }
      }
      FirstPassNoneMissing(s, 0, p0, []);
      SecondPassSingle(s, 0, p0, [], j);
      assert SecondPass(s, 0, p0, []) == q;
    }
    var o := Save(s, d, st, []);
    assert o.store.writes == st.writes + [Write(s.collection, q.doc.vals)];
    assert o.store.seqs == q.store.seqs;
  }
}

=== FILE: scenarios.dfy ===
/** Concrete documents, classes and sequences from the project's test
    suite, with the outcomes those tests expect, derived from the general
    model. */
module Scenarios {
  import opened Wrappers
  import opened Values
  import opened Schema
  import Fields
  import Validation
  import Construction
  import Sequences
  import Lifecycle

  /** The inherited `validate`, which returns `None`. */
  function NoHook(d: Doc): HookResult
  {
    NoErrors
  }

  /** The inherited `before_save`, which returns `True`. */
  function Proceed(d: Doc): bool
  {
    true
  }

  /** The inherited `after_save`, which does nothing. */
  function Keep(d: Doc): Doc
  {
    d
  }

  /** A class with the inherited hooks. */
  function Class(name: string, collection: string, fields: seq<FieldSpec>): Schema
  {
    Schema(name, collection, fields, NoHook, Some(Proceed), Some(Keep))
  }

  /** The validator of `test_DocFields`: anything but `"ok"` fails. */
  function OkOnly(name: string, v: Value): Option<string>
  {
    if v == VStr("ok") then None else Some(name + " is not ok")
  }

  /** `Field(str, "fld1", required=True)` */
  function RequiredFld1(): FieldSpec
  {
    FieldSpec(Plain, TStr, "fld1", true, VNone, None, None)
  }

  /** `Field(str, "fld3", default="field3")` */
  function DefaultFld3(): FieldSpec
  {
    FieldSpec(Plain, TStr, "fld3", false, VStr("field3"), None, None)
  }

  /** `Field(str, "fld4", validator=f3v)` */
  function CheckedFld4(): FieldSpec
  {
    FieldSpec(Plain, TStr, "fld4", false, VNone, Some(OkOnly), None)
  }

  /** A missing required field reports `"<name> is required"`. */
  lemma RequiredMessages()
    ensures Fields.IsValid(RequiredFld1(), VNone) == Fields.Check(false, "fld1 is required")
    ensures Fields.IsValid(RequiredFld1(), VStr("field-one")).valid
  {
    Fields.RequiredNoneFails(RequiredFld1());
    assert Fields.RequiredMessage(RequiredFld1()) == "fld1" + " is required";
  }

  /** `f3v` rejects `"bad"` with its message and accepts `"ok"`. */
  lemma CheckedMessages()
    ensures Fields.IsValid(CheckedFld4(), VStr("bad")) == Fields.Check(false, "fld4 is not ok")
    ensures Fields.IsValid(CheckedFld4(), VStr("ok")).valid
  {
    assert VStr("bad") != VStr("ok") by {
      assert "bad"[0] != "ok"[0];
    }
    var m := OkOnly("fld4", VStr("bad")).value;
    assert m == "fld4 is not ok";
    Fields.ValidatorMessageAppended(CheckedFld4(), VStr("bad"), m);
  }

  /** The class `N` of `test_DocFields`. */
  function FieldsClass(): Schema
  {
    Class("N", "", [RequiredFld1(), DefaultFld3(), CheckedFld4()])
  }

  /** The data of `test_DocFields`. */
  function FieldsData(): map<string, Value>
  {
    map["fld1" := VStr("field-one"), "fld2" := VStr("field-two"), "fld4" := VStr("ok")]
  }

  lemma FieldsClassShape()
    ensures UniqueNames(FieldsClass())
    ensures forall j :: 0 <= j < |FieldsClass().fields| ==>
      Construction.Ready(FieldsClass().fields[j], FieldsData()) && !FieldsClass().fields[j].kind.NestedDoc?
  {
    var fs := FieldsClass().fields;
    assert fs[0].name == "fld1" && fs[1].name == "fld3" && fs[2].name == "fld4";
  }

  /** The data `new` starts from is the dict itself. */
  lemma FieldsDataInitial()
    ensures Construction.Initial(VDict(FieldsData())) == FieldsData()
    ensures "fld1" in FieldsData() && FieldsData()["fld1"] == VStr("field-one")
    ensures "fld3" !in FieldsData()
    ensures "fld4" in FieldsData() && FieldsData()["fld4"] == VStr("ok")
  {
    assert Truthy(VDict(FieldsData()));
  }

  /** `N.new(d)` returns an instance. */
  lemma DocFieldsNewOk(conv: Conversions)
    ensures Construction.New(FieldsClass(), VDict(FieldsData()), conv).Ok?
  {
    FieldsDataInitial();
    FieldsClassShape();
    Construction.NewWellTyped(FieldsClass(), VDict(FieldsData()), conv);
  }

  /** `N.new(d)` keeps the data it was given and fills `fld3` from its
      default. */
  lemma DocFieldsNew(conv: Conversions)
    ensures Construction.New(FieldsClass(), VDict(FieldsData()), conv).Ok?
    ensures var d := Construction.New(FieldsClass(), VDict(FieldsData()), conv).value;
      Construction.At(d.vals, "fld1") == Some(VStr("field-one")) &&
      Construction.At(d.vals, "fld3") == Some(VStr("field3")) &&
      Construction.At(d.vals, "fld4") == Some(VStr("ok"))
  {
    var s := FieldsClass();
    var data := VDict(FieldsData());
    DocFieldsNewOk(conv);
    FieldsDataInitial();
    FieldsClassShape();
    Construction.NewKeepsInstance(s, data, conv, 0);
    Construction.NewDefault(s, data, conv, 1);
    Construction.NewKeepsInstance(s, data, conv, 2);
  }

  /** ... and the instance is valid. */
  lemma DocFieldsValid(conv: Conversions)
    ensures Construction.New(FieldsClass(), VDict(FieldsData()), conv).Ok?
    ensures Construction.New(FieldsClass(), VDict(FieldsData()), conv).value.errors == map[]
  {
    var s := FieldsClass();
    var data := VDict(FieldsData());
    DocFieldsNew(conv);
    var d := Construction.New(s, data, conv).value;
    var vals := Construction.CoerceFrom(s, 0, Construction.Initial(data), conv).value;
    assert vals == d.vals;
    forall j | 0 <= j < |s.fields|
      ensures Validation.CheckField(s, j, vals) == Ok(Validation.Pass)
    {
      assert j == 0 || j == 1 || j == 2;
      assert Fields.IsValid(s.fields[j], Get(vals, s.fields[j].name)).valid;
    }
    Construction.NewReturnsInvalid(s, data, conv, vals);
  }

  /** Every field of `test_DocFields`'s class is a plain field. */
  lemma FieldsClassPlain()
    ensures forall j :: 0 <= j < |FieldsClass().fields| ==> !FieldsClass().fields[j].kind.NestedDoc?
  {
  }

  /** With `fld1` deleted the instance is invalid and reports
      `"fld1 is required"`. */
  lemma MissingRequiredScenario()
    ensures var d := Doc("N", map["fld2" := VStr("field-two"), "fld3" := VStr("field3"), "fld4" := VStr("ok")], map[]);
      Validation.IsValid(FieldsClass(), d).Ok? &&
      !Validation.IsValid(FieldsClass(), d).value.valid &&
      "fld1" in Validation.Validate(FieldsClass(), d).value &&
      Validation.Validate(FieldsClass(), d).value["fld1"] == Some("fld1 is required")
  {
    var s := FieldsClass();
    var d := Doc("N", map["fld2" := VStr("field-two"), "fld3" := VStr("field3"), "fld4" := VStr("ok")], map[]);
    FieldsClassPlain();
    FieldsClassShape();
    Validation.OnlyNestedRaises(s, d);
    var fe := Validation.FieldErrors(s, d.vals).value;
    assert Get(d.vals, "fld1") == VNone;
    Validation.RequiredFieldReported(s, d, fe, 0);
    RequiredMessages();
  }

  /** With `fld4 = "bad"` the validator's message is reported under
      `fld4`. */
  lemma BadValueScenario()
    ensures var d := Doc("N", map["fld1" := VStr("field-one"), "fld3" := VStr("field3"), "fld4" := VStr("bad")], map[]);
      Validation.Validate(FieldsClass(), d).Ok? &&
      "fld4" in Validation.Validate(FieldsClass(), d).value &&
      Validation.Validate(FieldsClass(), d).value["fld4"] == Some("fld4 is not ok")
  {
    var s := FieldsClass();
    var d := Doc("N", map["fld1" := VStr("field-one"), "fld3" := VStr("field3"), "fld4" := VStr("bad")], map[]);
    FieldsClassPlain();
    FieldsClassShape();
    Validation.OnlyNestedRaises(s, d);
    var fe := Validation.FieldErrors(s, d.vals).value;
    CheckedMessages();
    assert Get(d.vals, "fld4") == VStr("bad");
    Validation.ValidateFieldEntry(s, d, fe, 2);
  }

  /** The class `M` of `getDocNew`, with the given `validate` hook and
      `before_save`. */
  function PairClass(hook: Doc -> HookResult, before: Option<Doc -> bool>): Schema
  {
    Schema("M", "test", [PlainField(TStr, "fld1"), PlainField(TStr, "fld2")], hook, before, Some(Keep))
  }

  /** The instance `getDocNew` returns. */
  function PairDoc(): Doc
  {
    Doc("M", map["fld1" := VStr("field-one"), "fld2" := VStr("field-two")], map[])
  }

  function TupleHook(d: Doc): HookResult
  {
    ErrorPair("customValidator", "object Not Valid")
  }

  function ListHook(d: Doc): HookResult
  {
    ErrorList([("customValidator1", "1 object Not Valid"), ("customValidator2", "2 object Not Valid")])
  }

  function FieldHook(d: Doc): HookResult
  {
    if Get(d.vals, "fld1") != VStr("blah") then ErrorPair("customValidator", "fld1 has bad value") else NoErrors
  }

  /** A hook returning one tuple, a list of tuples, or a tuple depending on
      the document: each message lands under its key. */
  lemma CustomValidationScenario()
    ensures Validation.Validate(PairClass(TupleHook, None), PairDoc()).Ok?
    ensures var e := Validation.Validate(PairClass(TupleHook, None), PairDoc()).value;
      "customValidator" in e && e["customValidator"] == Some("object Not Valid")
    ensures Validation.Validate(PairClass(ListHook, None), PairDoc()).Ok?
    ensures var e := Validation.Validate(PairClass(ListHook, None), PairDoc()).value;
      "customValidator1" in e && e["customValidator1"] == Some("1 object Not Valid") &&
      "customValidator2" in e && e["customValidator2"] == Some("2 object Not Valid")
    ensures Validation.Validate(PairClass(FieldHook, None), PairDoc()).Ok?
    ensures var e := Validation.Validate(PairClass(FieldHook, None), PairDoc()).value;
      "customValidator" in e && e["customValidator"] == Some("fld1 has bad value")
  {
    var d := PairDoc();
    var s1 := PairClass(TupleHook, None);
    Validation.OnlyNestedRaises(s1, d);
    Validation.HookPairsRecorded(s1, d, Validation.FieldErrors(s1, d.vals).value);
    var s2 := PairClass(ListHook, None);
    Validation.OnlyNestedRaises(s2, d);
    var fe2 := Validation.FieldErrors(s2, d.vals).value;
    Validation.HookLastPairWins(s2, d, fe2, 0);
    Validation.HookLastPairWins(s2, d, fe2, 1);
    var s3 := PairClass(FieldHook, None);
    Validation.OnlyNestedRaises(s3, d);
    Validation.HookPairsRecorded(s3, d, Validation.FieldErrors(s3, d.vals).value);
  }

  function GlobalFailHook(d: Doc): HookResult
  {
    ErrorPair("doc", "just testing")
  }

  function Veto(d: Doc): bool
  {
    false
  }

  /** An empty database. */
  function Empty(): Lifecycle.Store
  {
    Lifecycle.Store(map[], [])
  }

  /** `getDocNew`'s instance is valid whatever its `before_save`. */
  lemma PairDocValid(before: Option<Doc -> bool>)
    ensures Validation.Validate(PairClass(NoHook, before), PairDoc()) == Ok(map[])
  {
    var d := PairDoc();
    var s := PairClass(NoHook, before);
    Validation.OnlyNestedRaises(s, d);
    var fe := Validation.FieldErrors(s, d.vals).value;
    Validation.ValidIff(s, d, fe);
    forall j | 0 <= j < |s.fields|
      ensures Validation.CheckField(s, j, d.vals) == Ok(Validation.Pass)
    {
      assert Fields.IsValid(s.fields[j], Get(d.vals, s.fields[j].name)).valid;
    }
  }

  /** `m.save()` on a valid instance returns `True` and writes it, as it
      is, to `test`. */
  lemma SaveScenario()
    ensures var o := Lifecycle.Save(PairClass(NoHook, Some(Proceed)), PairDoc(), Empty(), []);
      o.result == Ok(true) && o.store.writes == [Lifecycle.Write("test", PairDoc().vals)]
  {
    var d := PairDoc();
    var s := PairClass(NoHook, Some(Proceed));
    PairDocValid(Some(Proceed));
    Lifecycle.SaveWrites(s, d, Empty(), []);
    assert Lifecycle.AutoIncNames(s) == {};
    var w := Lifecycle.Save(s, d, Empty(), []).store.writes[0];
    assert w.vals == w.vals - {};
    assert d.vals == d.vals - {};
  }

  /** A `before_save` returning `False` makes `save` return `False` and
      write nothing. */
  lemma VetoScenario()
    ensures var o := Lifecycle.Save(PairClass(NoHook, Some(Veto)), PairDoc(), Empty(), []);
      o.result == Ok(false) && o.store.writes == []
  {
    PairDocValid(Some(Veto));
    Lifecycle.SaveVeto(PairClass(NoHook, Some(Veto)), PairDoc(), Empty(), []);
  }

  /** A failing hook makes `save` raise and leaves its message in the
      errors; so does a missing required field, with `"fld1 is required"`. */
  lemma InvalidSaveScenario()
    ensures var o := Lifecycle.Save(PairClass(GlobalFailHook, Some(Proceed)), PairDoc(), Empty(), []);
      o.result == Err(OCMInvalid) && o.store == Empty() && "doc" in o.doc.errors && o.doc.errors["doc"] == Some("just testing")
    ensures var o := Lifecycle.Save(Class("N", "", [RequiredFld1()]), Doc("N", map["fld2" := VStr("field-two")], map[]), Empty(), []);
      o.result == Err(OCMInvalid) && o.store == Empty() && "fld1" in o.doc.errors && o.doc.errors["fld1"] == Some("fld1 is required")
  {
    var d := PairDoc();
    var s := PairClass(GlobalFailHook, Some(Proceed));
    Validation.OnlyNestedRaises(s, d);
    var fe := Validation.FieldErrors(s, d.vals).value;
    Validation.HookPairsRecorded(s, d, fe);
    Lifecycle.SaveRejectsIffInvalid(s, d, Empty(), [], fe);
    var s2 := Class("N", "", [RequiredFld1()]);
    var d2 := Doc("N", map["fld2" := VStr("field-two")], map[]);
    Validation.OnlyNestedRaises(s2, d2);
    var fe2 := Validation.FieldErrors(s2, d2.vals).value;
    assert Get(d2.vals, "fld1") == VNone;
    Validation.RequiredFieldReported(s2, d2, fe2, 0);
    RequiredMessages();
    Lifecycle.SaveRejectsIffInvalid(s2, d2, Empty(), [], fe2);
  }

  /** The class of `test_AutoIncField`: one auto-increment field. */
  function Counter(): Schema
  {
    Class("M", "stickies", [AutoIncField("fld_id", "testseq")])
  }

  /** `M.new()` sets the auto-increment field to `None`. */
  lemma NewCounterScenario(conv: Conversions)
    ensures Construction.New(Counter(), VNone, conv).Ok?
    ensures Construction.At(Construction.New(Counter(), VNone, conv).value.vals, "fld_id") == Some(VNone)
  {
    var s := Counter();
    assert forall j :: 0 <= j < |s.fields| ==> Construction.Ready(s.fields[j], Construction.Initial(VNone));
    Construction.NewWellTyped(s, VNone, conv);
    Construction.NewAutoIncAbsent(s, VNone, conv, 0);
  }

  /** Any `M` instance validates without errors. */
  lemma CounterValid(d: Doc)
    ensures Validation.Validate(Counter(), d) == Ok(map[])
  {
    var s := Counter();
    Validation.OnlyNestedRaises(s, d);
    var fe := Validation.FieldErrors(s, d.vals).value;
    Validation.ValidIff(s, d, fe);
    assert Validation.CheckField(s, 0, d.vals) == Ok(Validation.Pass);
  }

  /** Saving an instance whose field is `None` against an empty sequence
      store numbers it 1. */
  lemma FirstNumberScenario()
    ensures var o := Lifecycle.Save(Counter(), Doc("M", map["fld_id" := VNone], map[]), Empty(), []);
      o.result == Ok(true) && "fld_id" in o.doc.vals && o.doc.vals["fld_id"] == VInt(1) &&
      "testseq" in o.store.seqs && o.store.seqs["testseq"] == 1
  {
    var s := Counter();
    var d := Doc("M", map["fld_id" := VNone], map[]);
    CounterValid(d);
    var p0 := Lifecycle.Progress(d, Empty(), 0);
    assert !Lifecycle.Missing(s.fields[0], p0.doc.vals);
    Lifecycle.FirstPassNoneMissing(s, 0, p0, []);
    assert Lifecycle.NeedsNumber(s.fields[0], p0.doc.vals);
    var q := Lifecycle.Number(s.fields[0], p0, []);
    assert q.doc.vals["fld_id"] == VInt(1) && q.store.seqs["testseq"] == 1;
    assert Lifecycle.SecondPass(s, 1, q, []) == q;
    assert Lifecycle.SecondPass(s, 0, p0, []) == q;
  }

  /** A truthy value, even a negative one, is never renumbered. */
  lemma KeepsValueScenario()
    ensures var o := Lifecycle.Save(Counter(), Doc("M", map["fld_id" := VInt(-10)], map[]), Lifecycle.Store(map["testseq" := 1], []), []);
      o.result == Ok(true) && "fld_id" in o.doc.vals && o.doc.vals["fld_id"] == VInt(-10) && o.store.seqs == map["testseq" := 1]
  {
    var s := Counter();
    var d := Doc("M", map["fld_id" := VInt(-10)], map[]);
    var st := Lifecycle.Store(map["testseq" := 1], []);
    CounterValid(d);
    var p0 := Lifecycle.Progress(d.(errors := map[]), st, 0);
    assert !Lifecycle.Missing(s.fields[0], p0.doc.vals);
    Lifecycle.FirstPassNoneMissing(s, 0, p0, []);
    assert !Lifecycle.NeedsNumber(s.fields[0], p0.doc.vals);
    assert Lifecycle.SecondPass(s, 1, p0, []) == p0;
    assert Lifecycle.SecondPass(s, 0, p0, []) == p0;
  }

  /** With the field deleted, `save` draws the next number, 2, in its
      first loop, and the second loop leaves it alone. */
  lemma RenumberScenario()
    ensures var o := Lifecycle.Save(Counter(), Doc("M", map[], map[]), Lifecycle.Store(map["testseq" := 1], []), []);
      o.result == Ok(true) && "fld_id" in o.doc.vals && o.doc.vals["fld_id"] == VInt(2) &&
      "testseq" in o.store.seqs && o.store.seqs["testseq"] == 2
  {
    CounterValid(Doc("M", map[], map[]));
    Sequences.NextValUncontended(map["testseq" := 1], "testseq", Lifecycle.Retries);
  }

  /** `test_nextval`: a new sequence starts at 1, and five further calls
      after a value `n` end at `n + 5`. */
  lemma NextValScenario()
    ensures Sequences.NextVal(map[], "tst_seq", 100, []).value == 1
    ensures Sequences.Repeat(map[], "tst_seq", 100, 7).value == Sequences.Repeat(map[], "tst_seq", 100, 2).value + 5
  {
    Sequences.NextValConsecutive(map[], "tst_seq", 100, 1);
    Sequences.NextValConsecutive(map[], "tst_seq", 100, 6);
  }

  /** Under contention the loop can hand out a number another client has
      just taken: with `lastval` 5 read, a rival storing 6 before the only
      attempt makes `_nextval` return 6 as well. With no attempts at all it
      returns 5, the value already handed out. */
  lemma ContentionScenario()
    ensures Sequences.NextVal(map["s" := 5], "s", 1, [Some(6)]) == Sequences.Alloc(6, map["s" := 6])
    ensures Sequences.NextVal(map["s" := 5], "s", 0, []) == Sequences.Alloc(5, map["s" := 5])
  {
    assert !Sequences.Hits(5, [Some(6)], 0);
    Sequences.NextValExhausted(map["s" := 5], "s", 1, [Some(6)]);
    Sequences.NextValExhausted(map["s" := 5], "s", 0, []);
  }

  /** A class whose fields are plain, optional and without validators, and
      whose hook reports nothing, finds no errors in any instance. */
  lemma LaxClassValid(s: Schema, d: Doc)
    requires forall j :: 0 <= j < |s.fields| ==>
      !s.fields[j].kind.NestedDoc? && !s.fields[j].required && s.fields[j].validator.None?
    requires forall e :: s.validate(e).NoErrors?
    ensures Validation.Validate(s, d) == Ok(map[])
  {
    Validation.OnlyNestedRaises(s, d);
    var fe := Validation.FieldErrors(s, d.vals).value;
    Validation.ValidIff(s, d, fe);
    forall j | 0 <= j < |s.fields|
      ensures Validation.CheckField(s, j, d.vals) == Ok(Validation.Pass)
    {
      assert Fields.IsValid(s.fields[j], Get(d.vals, s.fields[j].name)).valid;
    }
    assert Validation.HookOf(s, d, fe).NoErrors?;
  }

  /** The nested class `N` of `test_NestedType` and `test_ListOfDocTypes`. */
  function Inner(): Schema
  {
    Class("N", "", [PlainField(TStr, "n-fld1"), PlainField(TInt, "n-fld2-int")])
  }

  /** The data of one `N`. */
  function InnerData(x: string, k: int): Value
  {
    VDict(map["n-fld1" := VStr(x), "n-fld2-int" := VInt(k)])
  }

  /** `N.new({...})` of well-typed data returns a valid `N`. */
  lemma InnerNew(x: string, k: int, conv: Conversions)
    ensures Construction.New(Inner(), InnerData(x, k), conv).Ok?
    ensures Construction.New(Inner(), InnerData(x, k), conv).value.kind == "N"
    ensures Construction.New(Inner(), InnerData(x, k), conv).value.errors == map[]
  {
    var s := Inner();
    var data := InnerData(x, k);
    assert Truthy(data);
    assert Construction.Initial(data) == data.entries;
    assert UniqueNames(s);
    forall j | 0 <= j < |s.fields|
      ensures Construction.Ready(s.fields[j], Construction.Initial(data)) && !s.fields[j].kind.NestedDoc?
    {
      assert j == 0 || j == 1;
    }
    Construction.NewWellTyped(s, data, conv);
    var d := Construction.New(s, data, conv).value;
    Construction.NewErrorsAreValidation(s, data, conv);
    LaxClassValid(s, d);
  }

  /** The class `M` of `test_ListOfDocTypes`. */
  function Lists(): Schema
  {
    Class("M", "test", [FieldSpec(ListOfDocs, TDoc(Inner()), "alist", false, VNone, None, None), PlainField(TList, "blist")])
  }

  function ListsData(): Value
  {
    VDict(map["alist" := VList([InnerData("fld1-1", 11), InnerData("fld1-2", 12)]),
              "blist" := VList([VStr("b1"), VStr("b2")])])
  }

  function ListItems(): seq<Value>
  {
    [InnerData("fld1-1", 11), InnerData("fld1-2", 12)]
  }

  lemma ListsRaw()
    ensures UniqueNames(Lists())
    ensures var raw := Construction.Initial(ListsData());
      "alist" in raw && raw["alist"] == VList(ListItems()) &&
      "blist" in raw && raw["blist"] == VList([VStr("b1"), VStr("b2")])
  {
    assert Truthy(ListsData());
  }

  /** Every element of the list is a valid `N` once converted. */
  lemma ListItemsNew(conv: Conversions)
    ensures Construction.NewEach(Inner(), ListItems(), conv).Ok?
    ensures forall k :: 0 <= k < 2 ==>
      Construction.New(Inner(), ListItems()[k], conv).Ok? && Construction.New(Inner(), ListItems()[k], conv).value.kind == "N"
  {
    InnerNew("fld1-1", 11, conv);
    InnerNew("fld1-2", 12, conv);
    Construction.NewEachOk(Inner(), ListItems(), conv);
  }

  /** The list-of-documents field converts its list. */
  lemma ListsFirstStep(conv: Conversions)
    ensures Construction.CoerceField(Lists(), 0, Construction.Initial(ListsData()), conv).Ok?
  {
    ListsRaw();
    ListItemsNew(conv);
    Construction.ListOfDocsStepOk(Lists(), 0, Construction.Initial(ListsData()), conv);
  }

  /** The plain list is kept. */
  lemma ListsSecondStep(conv: Conversions)
    ensures Construction.CoerceField(Lists(), 1, Construction.Initial(ListsData()), conv).Ok?
  {
    ListsRaw();
  }

  /** No `M` instance has errors. */
  lemma ListsValid(d: Doc)
    ensures Validation.Validate(Lists(), d) == Ok(map[])
  {
    LaxClassValid(Lists(), d);
  }

  /** `M.new(d)` returns a valid instance. */
  lemma ListsNewOk(conv: Conversions)
    ensures Construction.New(Lists(), ListsData(), conv).Ok?
    ensures Construction.New(Lists(), ListsData(), conv).value.errors == map[]
  {
    var s := Lists();
    var raw := Construction.Initial(ListsData());
    ListsRaw();
    ListsFirstStep(conv);
    ListsSecondStep(conv);
    forall j | 0 <= j < |s.fields|
      ensures Construction.CoerceField(s, j, raw, conv).Ok?
    {
      assert j == 0 || j == 1;
    }
    Construction.CoerceFromOk(s, 0, raw, conv);
    var vals := Construction.CoerceFrom(s, 0, raw, conv).value;
    ListsValid(Doc(s.name, vals, map[]));
    assert Construction.New(s, ListsData(), conv) == Ok(Doc(s.name, vals, map[]));
  }

  /** `M.new(d)` turns each element of the list-of-documents field into an
      `N`, keeps the plain list, and the result is valid. */
  lemma ListOfDocsScenario(conv: Conversions)
    ensures Construction.New(Lists(), ListsData(), conv).Ok?
    ensures var m := Construction.New(Lists(), ListsData(), conv).value;
      m.errors == map[] &&
      "alist" in m.vals && m.vals["alist"].VList? && |m.vals["alist"].items| == 2 &&
      (forall k :: 0 <= k < 2 ==> m.vals["alist"].items[k].VDoc? && m.vals["alist"].items[k].doc.kind == "N") &&
      "blist" in m.vals && m.vals["blist"] == VList([VStr("b1"), VStr("b2")])
  {
    var s := Lists();
    var data := ListsData();
    ListsRaw();
    ListsNewOk(conv);
    ListItemsNew(conv);
    Construction.NewListOfDocs(s, data, conv, 0);
    Construction.NewKeepsInstance(s, data, conv, 1);
  }

  /** The class `M` of `test_NestedType`. */
  function Outer(): Schema
  {
    Class("M", "test", [PlainField(TStr, "fld1"), PlainField(TStr, "fld2"),
                        FieldSpec(NestedDoc, TDoc(Inner()), "nested-fld1", false, VNone, None, None)])
  }

  function OuterData(): Value
  {
    VDict(map["fld1" := VStr("field-one"), "fld2" := VStr("field-two"), "nested-fld1" := InnerData("inside", 2)])
  }

  lemma OuterRaw()
    ensures UniqueNames(Outer())
    ensures var raw := Construction.Initial(OuterData());
      "fld1" in raw && raw["fld1"] == VStr("field-one") &&
      "fld2" in raw && raw["fld2"] == VStr("field-two") &&
      "nested-fld1" in raw && raw["nested-fld1"] == InnerData("inside", 2)
  {
    assert Truthy(OuterData());
  }

  /** The two string fields of `M` need no conversion. */
  lemma OuterPlainSteps(conv: Conversions)
    ensures Construction.CoerceField(Outer(), 0, Construction.Initial(OuterData()), conv).Ok?
    ensures Construction.CoerceField(Outer(), 1, Construction.Initial(OuterData()), conv).Ok?
  {
    OuterRaw();
  }

  /** The nested dict becomes an `N`. */
  lemma OuterNestedStep(conv: Conversions)
    ensures Construction.New(Inner(), InnerData("inside", 2), conv).Ok?
    ensures var raw := Construction.Initial(OuterData());
      Construction.CoerceField(Outer(), 2, raw, conv).Ok? &&
      Construction.At(Construction.CoerceField(Outer(), 2, raw, conv).value, "nested-fld1") ==
        Some(VDoc(Construction.New(Inner(), InnerData("inside", 2), conv).value))
  {
    OuterRaw();
    InnerNew("inside", 2, conv);
    Construction.NestedStepOk(Outer(), 2, Construction.Initial(OuterData()), conv);
  }

  /** The field loop of `M.new(d)` goes through, turning the nested dict
      into an `N`. */
  lemma OuterSteps(conv: Conversions)
    ensures Construction.New(Inner(), InnerData("inside", 2), conv).Ok?
    ensures Construction.CoerceFrom(Outer(), 0, Construction.Initial(OuterData()), conv).Ok?
    ensures var vals := Construction.CoerceFrom(Outer(), 0, Construction.Initial(OuterData()), conv).value;
      Construction.At(vals, "nested-fld1") == Some(VDoc(Construction.New(Inner(), InnerData("inside", 2), conv).value))
  {
    var s := Outer();
    var raw := Construction.Initial(OuterData());
    OuterRaw();
    OuterNestedStep(conv);
    OuterPlainSteps(conv);
    assert |s.fields| == 3 && s.fields[2].name == "nested-fld1";
    forall j | 0 <= j < |s.fields|
      ensures Construction.CoerceField(s, j, raw, conv).Ok?
    {
      assert j == 0 || j == 1 || j == 2;
    }
    Construction.CoerceFromOk(s, 0, raw, conv);
    Construction.CoerceFromField(s, 0, raw, conv, 2);
  }

  /** An `M` whose nested field holds an `N` has no errors. */
  lemma OuterValid(vals: map<string, Value>, nd: Doc)
    requires "nested-fld1" in vals && vals["nested-fld1"] == VDoc(nd) && nd.kind == "N"
    ensures Validation.Validate(Outer(), Doc("M", vals, map[])) == Ok(map[])
  {
    var s := Outer();
    var d := Doc("M", vals, map[]);
    LaxClassValid(Inner(), nd);
    forall j | 0 <= j < |s.fields|
      ensures Validation.CheckField(s, j, d.vals) == Ok(Validation.Pass)
    {
      if j < 2 {
        assert Fields.IsValid(s.fields[j], Get(d.vals, s.fields[j].name)).valid;
      }
    }
    Validation.ValidateRaises(s, d);
    var fe := Validation.FieldErrors(s, d.vals).value;
    Validation.ValidIff(s, d, fe);
    assert Validation.HookOf(s, d, fe).NoErrors?;
  }

  /** `M.new(d)` with a dict under the nested field returns a valid `M`
      whose nested field holds an `N`. */
  lemma NestedScenario(conv: Conversions)
    ensures Construction.New(Outer(), OuterData(), conv).Ok?
    ensures var m := Construction.New(Outer(), OuterData(), conv).value;
      m.errors == map[] && "nested-fld1" in m.vals &&
      m.vals["nested-fld1"].VDoc? && m.vals["nested-fld1"].doc.kind == "N"
  {
    OuterSteps(conv);
    InnerNew("inside", 2, conv);
    var vals := Construction.CoerceFrom(Outer(), 0, Construction.Initial(OuterData()), conv).value;
    OuterValid(vals, Construction.New(Inner(), InnerData("inside", 2), conv).value);
  }
}

=== FILE: schema.dfy ===
/** Field specifications and document classes (schemas). */
module Schema {
  import opened Wrappers
  import opened Values

  /** Exceptions the core can raise. `OCMInvalid` is `OCMInvalidException`,
      raised both for a class with no fields and for a failed save.
      `AttributeError` is raised when a nested field holds something that is
      not a document, or a list-of-documents element type is not a document
      class. `ConversionFailed` is a coercion (`int(float(x))`, a type
      constructor, iteration) that raised. `UnknownKind` is validation of a
      nested document of a class other than the declared one, which this model
      has no registry to resolve. */
  datatype Exc = OCMInvalid | AttributeError | ConversionFailed | UnknownKind

  /** The `fldtype` of a field: a Python type, or a `Doc` subclass. */
  datatype FieldType =
    | TInt
    | TBool
    | TStr
    | TList
    | TTuple
    | TDict
    | TDoc(schema: Schema)
    | TOther(name: string)

  /** The Field subclass a spec was built with. `ListField` behaves exactly
      like `Field` (its type is used for the whole value). */
  datatype FieldKind = Plain | ListField | ListOfDocs | AutoInc(seqname: string) | NestedDoc

  /** `Field(fldtype, name, required, default, validator, invalid_message)`.
      A `default` of `VNone` is Python's `None`. The validator receives the
      field's name and the value, and returns a message or `None`. */
  datatype FieldSpec = FieldSpec(
    kind: FieldKind,
    ftype: FieldType,
    name: string,
    required: bool,
    default: Value,
    validator: Option<(string, Value) -> Option<string>>,
    invalidMessage: Option<string>)

  /** What a document-level `validate` hook returns: nothing, one
      `(key, message)` tuple, or a list of such tuples. */
  datatype HookResult = NoErrors | ErrorPair(key: string, message: string) | ErrorList(pairs: seq<(string, string)>)

  /** A `Doc` subclass: its name, collection, ordered fields and hooks.
      `beforeSave` / `afterSave` of `None` model a hook set to `None`. */
  datatype Schema = Schema(
    name: string,
    collection: string,
    fields: seq<FieldSpec>,
    validate: Doc -> HookResult,
    beforeSave: Option<Doc -> bool>,
    afterSave: Option<Doc -> Doc>)

  /** The coercions the source delegates to Python builtins, left opaque:
      `int(float(x))`, a plain type constructor `fldtype(x)`, and iteration
      over a value that is not a list or tuple. `None` means the builtin raised. */
  datatype Conversions = Conversions(
    toInt: Value -> Option<int>,
    construct: (FieldType, Value) -> Option<Value>,
    iterate: Value -> Option<seq<Value>>)

  /** `Field(fldtype, name)` with every keyword argument at its default. */
  function PlainField(t: FieldType, name: string): FieldSpec
  {
    FieldSpec(Plain, t, name, false, VNone, None, None)
  }

  /** `AutoIncField(name, seqname)`: always of type `int`. */
  function AutoIncField(name: string, seqname: string): FieldSpec
  {
    FieldSpec(AutoInc(seqname), TInt, name, false, VNone, None, None)
  }

  /** `isinstance(v, t)`. In Python `bool` is a subclass of `int`, and `Doc`
      is a subclass of `dict`. */
  predicate IsInstance(v: Value, t: FieldType)
  {
    match t
    case TInt => v.VInt? || v.VBool?
    case TBool => v.VBool?
    case TStr => v.VStr?
    case TList => v.VList?
    case TTuple => v.VTuple?
    case TDict => v.VDict? || v.VDoc?
    case TDoc(n) => v.VDoc? && v.doc.kind == n.name
    case TOther(c) => v.VObj? && v.cls == c
  }

  /** No two fields of the class share a name. */
  ghost predicate UniqueNames(s: Schema)
  {
    forall i, j :: 0 <= i < j < |s.fields| ==> s.fields[i].name != s.fields[j].name
  }
}

=== FILE: sequences.dfy ===
/** `Mgr._nextval`: named integer sequences kept in the `sequences`
    collection, advanced with a compare-and-set retry loop. */
module Sequences {
  import opened Wrappers

  /** The `lastval` of each sequence in the `sequences` collection. A
      sequence whose `lastval` is negative is invisible to the lookup, which
      only matches `lastval >= 0`. */
  type Seqs = map<string, int>

  /** Writes by other clients that race with the retry loop: entry `k`, when
      present, is the `lastval` another client stored just before attempt
      `k`'s conditional update. Attempts past the end see no interference. */
  type Rivals = seq<Option<int>>

  /** The number handed out and the sequences afterwards. */
  datatype Alloc = Alloc(value: int, seqs: Seqs)

  /** The lookup `{"seqname": name, "lastval": {"$gte": 0}}` finds the
      sequence. */
  predicate Live(seqs: Seqs, name: string)
  {
    name in seqs && seqs[name] >= 0
  }

  /** The stored `lastval` as attempt `k` sees it, when the loop read
      `base` and no earlier attempt succeeded: the latest rival write at or
      before `k`, or `base` if there was none. */
  function Seen(base: int, rivals: Rivals, k: nat): int
  {
    if k < |rivals| && rivals[k].Some? then rivals[k].value
    else if k == 0 then base
    else Seen(base, rivals, k - 1)
  }

  /** Attempt `k` finds the value the loop read and so its update applies. */
  predicate Hits(base: int, rivals: Rivals, k: nat)
  {
    Seen(base, rivals, k) == base
  }

  /** The retry loop from attempt `k` with `cur` stored: attempt `k` tries
      to move `lastval` from `base` to `base + k + 1`. The result is the
      number returned and the `lastval` left stored. */
  function Attempts(base: int, cur: int, k: nat, retries: nat, rivals: Rivals): (int, int)
    decreases retries - k
  {
    if k >= retries then (base + k, cur)
    else
      var c := if k < |rivals| && rivals[k].Some? then rivals[k].value else cur;
      if c == base then (base + k + 1, base + k + 1)
      else Attempts(base, c, k + 1, retries, rivals)
  }

  /** `mgr._nextval(name, retries)`. A sequence the lookup does not find is
      (re)created with `lastval` 1, and 1 is returned; otherwise the retry
      loop runs from the `lastval` read. */
  function NextVal(seqs: Seqs, name: string, retries: nat, rivals: Rivals): (r: Alloc)
    ensures name in r.seqs
    ensures r.seqs - {name} == seqs - {name}
    ensures !Live(seqs, name) ==> r.value == 1 && r.seqs[name] == 1
    ensures Live(seqs, name) && retries > 0 ==> r.value > seqs[name]
  {
    if !Live(seqs, name) then Alloc(1, seqs[name := 1])
    else
      var base := seqs[name];
      var (v, stored) := Attempts(base, base, 0, retries, rivals);
      AttemptsAdvance(base, base, 0, retries, rivals);
      Alloc(v, seqs[name := stored])
  }

  /** The number returned grows with every attempt made. */
  lemma {:induction false} AttemptsAdvance(base: int, cur: int, k: nat, retries: nat, rivals: Rivals)
    ensures k < retries ==> Attempts(base, cur, k, retries, rivals).0 > base + k
    decreases retries - k
  {
    if k < retries {
      var c := if k < |rivals| && rivals[k].Some? then rivals[k].value else cur;
      if c != base {
        AttemptsAdvance(base, c, k + 1, retries, rivals);
      }
    }
  }

  /** From attempt `k` on, with `cur` equal to what attempt `k - 1` saw, the
      loop succeeds at the first later attempt that hits: it returns and
      stores `base + j + 1`. */
  lemma {:induction false} AttemptsFirstHit(base: int, k: nat, retries: nat, rivals: Rivals, j: nat)
    requires k <= j < retries && Hits(base, rivals, j)
    requires forall i :: k <= i < j ==> !Hits(base, rivals, i)
    ensures Attempts(base, if k == 0 then base else Seen(base, rivals, k - 1), k, retries, rivals) ==
            (base + j + 1, base + j + 1)
    decreases j - k
  {
    var cur := if k == 0 then base else Seen(base, rivals, k - 1);
    assert Seen(base, rivals, k) == if k < |rivals| && rivals[k].Some? then rivals[k].value else cur;
    if k < j {
      assert !Hits(base, rivals, k);
      AttemptsFirstHit(base, k + 1, retries, rivals, j);
    }
  }

  /** When no attempt from `k` on hits, the loop gives up: it returns
      `base + retries` and leaves the last rival write stored. */
  lemma {:induction false} AttemptsAllMiss(base: int, k: nat, retries: nat, rivals: Rivals)
    requires k <= retries
    requires forall i :: k <= i < retries ==> !Hits(base, rivals, i)
    ensures Attempts(base, if k == 0 then base else Seen(base, rivals, k - 1), k, retries, rivals) ==
            (base + retries, if retries == 0 then base else Seen(base, rivals, retries - 1))
    decreases retries - k
  {
    if k < retries {
      var cur := if k == 0 then base else Seen(base, rivals, k - 1);
      assert Seen(base, rivals, k) == if k < |rivals| && rivals[k].Some? then rivals[k].value else cur;
      assert !Hits(base, rivals, k);
      AttemptsAllMiss(base, k + 1, retries, rivals);
    }
  }

  /** The first attempt that finds `lastval` unchanged wins: `_nextval`
      returns `base + j + 1` and that is the stored `lastval`. */
  lemma NextValFirstHit(seqs: Seqs, name: string, retries: nat, rivals: Rivals, j: nat)
    requires Live(seqs, name)
    requires j < retries && Hits(seqs[name], rivals, j)
    requires forall i :: 0 <= i < j ==> !Hits(seqs[name], rivals, i)
    ensures NextVal(seqs, name, retries, rivals).value == seqs[name] + j + 1
    ensures NextVal(seqs, name, retries, rivals).seqs[name] == seqs[name] + j + 1
  {
    AttemptsFirstHit(seqs[name], 0, retries, rivals, j);
  }

  /** When every attempt misses, `_nextval` still returns a number,
      `base + retries`, which it never stored: the stored `lastval` is the
      last rival write (or unchanged when no attempt ran). */
  lemma NextValExhausted(seqs: Seqs, name: string, retries: nat, rivals: Rivals)
    requires Live(seqs, name)
    requires forall i :: 0 <= i < retries ==> !Hits(seqs[name], rivals, i)
    ensures NextVal(seqs, name, retries, rivals).value == seqs[name] + retries
    ensures NextVal(seqs, name, retries, rivals).seqs[name] ==
            if retries == 0 then seqs[name] else Seen(seqs[name], rivals, retries - 1)
  {
    AttemptsAllMiss(seqs[name], 0, retries, rivals);
  }

  /** Without interference the first attempt succeeds: the sequence moves
      to the next integer and that integer is returned. */
  lemma NextValUncontended(seqs: Seqs, name: string, retries: nat)
    requires Live(seqs, name) && retries > 0
    ensures NextVal(seqs, name, retries, []).value == seqs[name] + 1
    ensures NextVal(seqs, name, retries, []).seqs == seqs[name := seqs[name] + 1]
  {
    NextValFirstHit(seqs, name, retries, [], 0);
  }

  /** Uncontended calls hand out consecutive numbers, and the first call on
      a sequence that does not exist yet hands out 1. */
  lemma {:induction false} NextValConsecutive(seqs: Seqs, name: string, retries: nat, n: nat)
    requires retries > 0
    ensures Repeat(seqs, name, retries, n + 1).value ==
      (if Live(seqs, name) then seqs[name] else 0) + n + 1
    ensures Repeat(seqs, name, retries, n + 1).seqs[name] == Repeat(seqs, name, retries, n + 1).value
  {
    if n == 0 {
      if Live(seqs, name) {
        NextValUncontended(seqs, name, retries);
      }
    } else {
      NextValConsecutive(seqs, name, retries, n - 1);
      var prev := Repeat(seqs, name, retries, n);
      assert Live(prev.seqs, name);
      NextValUncontended(prev.seqs, name, retries);
    }
  }

  /** `n` uncontended calls in a row (`n >= 1`). */
  function Repeat(seqs: Seqs, name: string, retries: nat, n: nat): Alloc
    requires n >= 1
  {
    if n == 1 then NextVal(seqs, name, retries, [])
    else NextVal(Repeat(seqs, name, retries, n - 1).seqs, name, retries, [])
  }

  /** The retry loop of `_nextval` as written, with a flag in place of
      `break`; it computes exactly `NextVal`. */
  method NextValue(seqs: Seqs, name: string, retries: nat, rivals: Rivals) returns (value: int, after: Seqs)
    ensures Alloc(value, after) == NextVal(seqs, name, retries, rivals)
  {
    if !Live(seqs, name) {
      return 1, seqs[name := 1];
    }
    var base := seqs[name];
    var vnew := base;
    var cur := base;
    var r := 0;
    var done := false;
    while !done && r < retries
      invariant 0 <= r <= retries
      invariant done ==> (vnew, cur) == Attempts(base, base, 0, retries, rivals)
      invariant !done ==> vnew == base + r && Attempts(base, cur, r, retries, rivals) == Attempts(base, base, 0, retries, rivals)
      decreases retries - r, if done then 0 else 1
    {
      vnew := vnew + 1;
      if r < |rivals| && rivals[r].Some? {
        cur := rivals[r].value;
      }
      if cur == base {
        cur := vnew;
        done := true;
      } else {
        r := r + 1;
      }
    }
    value := vnew;
    after := seqs[name := cur];
  }
}

=== FILE: validation.dfy ===
/** `Doc._validate` / `Doc.is_valid`: per-field checks, the document-level
    hook, and the aggregated error map. */
module Validation {
  import opened Wrappers
  import opened Values
  import opened Schema
  import Fields

  /** The verdict on one field: it passes, or it fails and records `message`
      under its name (`None` for a nested document). */
  datatype Verdict = Pass | Fail(message: Option<string>)

  /** The verdict on field `i` of `s` for the value map `vals`. A nested
      document field re-validates the nested instance against its class
      (calling `is_valid` on something that is not a document raises
      `AttributeError`); every other field goes through `Field.is_valid`
      with the value, or `None` when absent. */
  function CheckField(s: Schema, i: nat, vals: map<string, Value>): Result<Verdict, Exc>
    requires i < |s.fields|
    decreases s, 0, 0
  {
    var f := s.fields[i];
    var v := Get(vals, f.name);
    if f.kind.NestedDoc? then
      match v
      case VDoc(nd) =>
        if f.ftype.TDoc? && f.ftype.schema.name == nd.kind then
          assert f.ftype.schema < f.ftype < f < s;
          match Validate(f.ftype.schema, nd)
          case Err(e) => Err(e)
          case Ok(ne) => if |ne| == 0 then Ok(Pass) else Ok(Fail(None))
        else Err(UnknownKind)
      case _ => Err(AttributeError)
    else
      var c := Fields.IsValid(f, v);
      if c.valid then Ok(Pass) else Ok(Fail(Some(c.error)))
  }

  /** The verdicts on every field, in declaration order. */
  function Verdicts(s: Schema, vals: map<string, Value>): (vs: seq<Result<Verdict, Exc>>)
    ensures |vs| == |s.fields|
    decreases s, 1, 0
  {
    seq(|s.fields|, j requires 0 <= j < |s.fields| => CheckField(s, j, vals))
  }

  /** Entry `j` of the verdicts is the check of field `j`. */
  lemma VerdictAt(s: Schema, vals: map<string, Value>, j: nat)
    requires j < |s.fields|
    ensures Verdicts(s, vals)[j] == CheckField(s, j, vals)
  {
  }

  /** The names of the fields, in declaration order. */
  function Names(s: Schema): (ns: seq<string>)
    ensures |ns| == |s.fields|
    ensures forall j :: 0 <= j < |s.fields| ==> ns[j] == s.fields[j].name
  {
    seq(|s.fields|, j requires 0 <= j < |s.fields| => s.fields[j].name)
  }

  /** The loop of `_validate` over the fields from `i`: the first check that
      raises aborts the pass, and each failing field records its message
      under its name. */
  function Collect(names: seq<string>, vs: seq<Result<Verdict, Exc>>, i: nat, acc: Errors): Result<Errors, Exc>
    requires |names| == |vs| && i <= |vs|
    decreases |vs| - i
  {
    if i == |vs| then Ok(acc)
    else
      match vs[i]
      case Err(e) => Err(e)
      case Ok(Pass) => Collect(names, vs, i + 1, acc)
      case Ok(Fail(m)) => Collect(names, vs, i + 1, acc[names[i] := m])
  }

  /** The error map after the field loop of `_validate`. */
  function FieldErrors(s: Schema, vals: map<string, Value>): Result<Errors, Exc>
    decreases s, 1, 1
  {
    Collect(Names(s), Verdicts(s, vals), 0, map[])
  }

  /** The error map of `_validate`: field errors, then the hook's pairs merged
      in. The hook sees the document with the field errors already recorded. */
  function Validate(s: Schema, d: Doc): Result<Errors, Exc>
    decreases s, 2, 0
  {
    match FieldErrors(s, d.vals)
    case Err(e) => Err(e)
    case Ok(fe) => Ok(Merge(fe, s.validate(d.(errors := fe))))
  }

  /** Merge one hook result into the errors. */
  function Merge(errs: Errors, h: HookResult): Errors
  {
    match h
    case NoErrors => errs
    case ErrorPair(k, m) => errs[k := Some(m)]
    case ErrorList(ps) => MergePairs(errs, ps)
  }

  /** The message of the last pair in `ps` whose key is `k`, if any. */
  function LastFor(ps: seq<(string, string)>, k: string): Option<string>
    decreases |ps|
  {
    if |ps| == 0 then None
    else
      var later := LastFor(ps[1..], k);
      if later.Some? then later
      else if ps[0].0 == k then Some(ps[0].1)
      else None
  }

  /** Set each pair in turn: every key of `ps` ends up holding the message of
      its last pair, and every other key keeps its earlier entry. */
  function MergePairs(errs: Errors, ps: seq<(string, string)>): (r: Errors)
    ensures forall k :: k in r <==> k in errs || LastFor(ps, k).Some?
    ensures forall k :: k in r ==> r[k] == if LastFor(ps, k).Some? then LastFor(ps, k) else errs[k]
    decreases |ps|
  {
    if |ps| == 0 then errs
    else MergePairs(errs[ps[0].0 := Some(ps[0].1)], ps[1..])
  }

  /** The keys a hook result sets. */
  function HookKeys(h: HookResult): set<string>
  {
    match h
    case NoErrors => {}
    case ErrorPair(k, _) => {k}
    case ErrorList(ps) => set j | 0 <= j < |ps| :: ps[j].0
  }

  /** A key has a last pair iff some pair carries it. */
  lemma {:induction false} LastForSome(ps: seq<(string, string)>, k: string)
    ensures LastFor(ps, k).Some? <==> exists j :: 0 <= j < |ps| && ps[j].0 == k
    decreases |ps|
  {
    if |ps| > 0 {
      LastForSome(ps[1..], k);
      if exists j :: 0 <= j < |ps| && ps[j].0 == k {
        var j :| 0 <= j < |ps| && ps[j].0 == k;
        if j > 0 {
          assert ps[1..][j - 1].0 == k;
        }
      }
      if exists j :: 0 <= j < |ps[1..]| && ps[1..][j].0 == k {
        var j :| 0 <= j < |ps[1..]| && ps[1..][j].0 == k;
        assert ps[j + 1].0 == k;
      }
    }
  }

  /** The pair at `j` is the last with its key: its message is the one kept. */
  lemma {:induction false} LastForIsLast(ps: seq<(string, string)>, j: nat)
    requires j < |ps|
    requires forall j' :: j < j' < |ps| ==> ps[j'].0 != ps[j].0
    ensures LastFor(ps, ps[j].0) == Some(ps[j].1)
    decreases |ps|
  {
    var k := ps[j].0;
    LastForSome(ps[1..], k);
    if j > 0 {
      assert ps[1..][j - 1] == ps[j];
      LastForIsLast(ps[1..], j - 1);
    } else {
      assert forall i :: 0 <= i < |ps[1..]| ==> ps[1..][i] == ps[i + 1];
    }
  }

  /** The result of `is_valid()`: the verdict and the document carrying the
      fresh error map. */
  datatype Validated = Validated(valid: bool, doc: Doc)

  /** `Doc.is_valid()`: re-runs `_validate`, stores the errors, and reports
      whether they are empty. The instance's own `errors` is the only part
      replaced; nested documents keep the error maps they carried, whereas
      the source's nested `is_valid` calls refresh theirs. */
  function IsValid(s: Schema, d: Doc): (r: Result<Validated, Exc>)
    ensures r.Ok? <==> Validate(s, d).Ok?
    ensures r.Ok? ==> r.value.doc == d.(errors := Validate(s, d).value)
    ensures r.Ok? ==> (r.value.valid <==> r.value.doc.errors == map[])
  {
    match Validate(s, d)
    case Err(e) => Err(e)
    case Ok(errs) => Ok(Validated(|errs| == 0, d.(errors := errs)))
  }

  /** The names of the entries that fail among `i..`. */
  ghost function FailingNames(names: seq<string>, vs: seq<Result<Verdict, Exc>>, i: nat): set<string>
    requires |names| == |vs| && i <= |vs|
  {
    set j | i <= j < |vs| && vs[j].Ok? && vs[j].value.Fail? :: names[j]
  }

  /** The loop raises iff some verdict from `i` on is an exception. */
  lemma {:induction false} CollectRaises(names: seq<string>, vs: seq<Result<Verdict, Exc>>, i: nat, acc: Errors)
    requires |names| == |vs| && i <= |vs|
    ensures Collect(names, vs, i, acc).Ok? <==> forall j :: i <= j < |vs| ==> vs[j].Ok?
    decreases |vs| - i
  {
    if i < |vs| {
      match vs[i]
      case Err(e) =>
      case Ok(Pass) => CollectRaises(names, vs, i + 1, acc);
      case Ok(Fail(m)) => CollectRaises(names, vs, i + 1, acc[names[i] := m]);
    }
  }

  /** A loop that does not raise keeps the earlier keys and adds exactly the
      names of the failing fields. */
  lemma {:induction false} CollectKeys(names: seq<string>, vs: seq<Result<Verdict, Exc>>, i: nat, acc: Errors, errs: Errors)
    requires |names| == |vs| && i <= |vs|
    requires Collect(names, vs, i, acc) == Ok(errs)
    ensures errs.Keys == acc.Keys + FailingNames(names, vs, i)
    decreases |vs| - i
  {
    if i < |vs| {
      match vs[i]
      case Ok(Pass) =>
        CollectKeys(names, vs, i + 1, acc, errs);
        assert FailingNames(names, vs, i) == FailingNames(names, vs, i + 1);
      case Ok(Fail(m)) =>
        CollectKeys(names, vs, i + 1, acc[names[i] := m], errs);
        assert FailingNames(names, vs, i) == {names[i]} + FailingNames(names, vs, i + 1);
    }
  }

  /** With distinct names, each failing entry records its own message, and
      earlier entries under names not checked from `i` survive. */
  lemma {:induction false} CollectValues(names: seq<string>, vs: seq<Result<Verdict, Exc>>, i: nat, acc: Errors, errs: Errors)
    requires |names| == |vs| && i <= |vs|
    requires forall j, k :: 0 <= j < k < |names| ==> names[j] != names[k]
    requires Collect(names, vs, i, acc) == Ok(errs)
    ensures forall j :: i <= j < |vs| && vs[j].Ok? && vs[j].value.Fail? ==>
              names[j] in errs && errs[names[j]] == vs[j].value.message
    ensures forall k :: k in acc && (forall j :: i <= j < |vs| ==> names[j] != k) ==>
              k in errs && errs[k] == acc[k]
    decreases |vs| - i
  {
    if i < |vs| {
      match vs[i]
      case Ok(Pass) =>
        CollectValues(names, vs, i + 1, acc, errs);
      case Ok(Fail(m)) =>
        CollectValues(names, vs, i + 1, acc[names[i] := m], errs);
    }
  }

  /** The names of the failing fields of `s` for `vals`. */
  ghost function FailingFields(s: Schema, vals: map<string, Value>): set<string>
  {
    FailingNames(Names(s), Verdicts(s, vals), 0)
  }

  /** The hook's result as `_validate` sees it: on the document carrying the
      field errors `fe`. */
  function HookOf(s: Schema, d: Doc, fe: Errors): HookResult
  {
    s.validate(d.(errors := fe))
  }

  /** Merging a hook result adds exactly the keys it names. */
  lemma MergeKeys(fe: Errors, h: HookResult)
    ensures Merge(fe, h).Keys == fe.Keys + HookKeys(h)
  {
    if h.ErrorList? {
      forall k
        ensures k in Merge(fe, h) <==> k in fe.Keys + HookKeys(h)
      {
        LastForSome(h.pairs, k);
        if exists j :: 0 <= j < |h.pairs| && h.pairs[j].0 == k {
          var j :| 0 <= j < |h.pairs| && h.pairs[j].0 == k;
          assert k in HookKeys(h);
        }
      }
    }
  }

  /** When `_validate` does not raise, its error keys are exactly the
      failing field names plus the keys the hook returned. */
  lemma ValidateKeys(s: Schema, d: Doc, fe: Errors)
    requires FieldErrors(s, d.vals) == Ok(fe)
    ensures Validate(s, d).Ok?
    ensures Validate(s, d).value.Keys == FailingFields(s, d.vals) + HookKeys(HookOf(s, d, fe))
  {
    CollectKeys(Names(s), Verdicts(s, d.vals), 0, map[], fe);
    MergeKeys(fe, HookOf(s, d, fe));
  }

  /** A loop from an empty map yields no entry iff every verdict passes. */
  lemma CollectEmpty(names: seq<string>, vs: seq<Result<Verdict, Exc>>, errs: Errors)
    requires |names| == |vs|
    requires Collect(names, vs, 0, map[]) == Ok(errs)
    ensures errs == map[] <==> forall j :: 0 <= j < |vs| ==> vs[j] == Ok(Pass)
  {
    CollectKeys(names, vs, 0, map[], errs);
    CollectRaises(names, vs, 0, map[]);
    if errs == map[] {
      forall j | 0 <= j < |vs|
        ensures vs[j] == Ok(Pass)
      {
        assert vs[j].Ok?;
        assert names[j] !in FailingNames(names, vs, 0);
      }
    }
    if forall j :: 0 <= j < |vs| ==> vs[j] == Ok(Pass) {
      assert FailingNames(names, vs, 0) == {};
    }
  }

  /** Every field passes. */
  predicate AllPass(s: Schema, vals: map<string, Value>)
  {
    forall j :: 0 <= j < |s.fields| ==> CheckField(s, j, vals) == Ok(Pass)
  }

  /** The field loop yields no entry iff every field passes. */
  lemma FieldErrorsEmpty(s: Schema, vals: map<string, Value>, fe: Errors)
    requires FieldErrors(s, vals) == Ok(fe)
    ensures fe == map[] <==> AllPass(s, vals)
  {
    if fe == map[] {
      NoEntryAllPass(s, vals, fe);
    }
    if AllPass(s, vals) {
      AllPassNoEntry(s, vals, fe);
    }
  }

  /** An empty field-error map means every field passed. */
  lemma NoEntryAllPass(s: Schema, vals: map<string, Value>, fe: Errors)
    requires FieldErrors(s, vals) == Ok(fe) && fe == map[]
    ensures AllPass(s, vals)
  {
    var vs := Verdicts(s, vals);
    CollectEmpty(Names(s), vs, fe);
    forall j | 0 <= j < |s.fields|
      ensures CheckField(s, j, vals) == Ok(Pass)
    {
      VerdictAt(s, vals, j);
      assert vs[j] == Ok(Pass);
    }
  }

  /** When every field passes, the field loop records nothing. */
  lemma AllPassNoEntry(s: Schema, vals: map<string, Value>, fe: Errors)
    requires FieldErrors(s, vals) == Ok(fe)
    requires AllPass(s, vals)
    ensures fe == map[]
  {
    var vs := Verdicts(s, vals);
    CollectEmpty(Names(s), vs, fe);
    forall j | 0 <= j < |s.fields|
      ensures vs[j] == Ok(Pass)
    {
      VerdictAt(s, vals, j);
    }
  }

  /** `is_valid()` is true iff every field passes and the hook returns no
      pair. */
  lemma ValidIff(s: Schema, d: Doc, fe: Errors)
    requires FieldErrors(s, d.vals) == Ok(fe)
    ensures Validate(s, d).Ok?
    ensures Validate(s, d).value == map[] <==>
              AllPass(s, d.vals) &&
              HookKeys(HookOf(s, d, fe)) == {}
  {
    FieldErrorsEmpty(s, d.vals, fe);
    var h := HookOf(s, d, fe);
    MergeKeys(fe, h);
    assert Validate(s, d).value == Merge(fe, h);
  }

  /** The pass raises iff the check of some field raises. */
  lemma ValidateRaises(s: Schema, d: Doc)
    ensures Validate(s, d).Err? <==> exists j :: 0 <= j < |s.fields| && CheckField(s, j, d.vals).Err?
  {
    var vs := Verdicts(s, d.vals);
    CollectRaises(Names(s), vs, 0, map[]);
    assert FieldErrors(s, d.vals) == Collect(Names(s), vs, 0, map[]);
    if Validate(s, d).Err? {
      assert FieldErrors(s, d.vals).Err?;
      var j :| 0 <= j < |vs| && !vs[j].Ok?;
      VerdictAt(s, d.vals, j);
      assert CheckField(s, j, d.vals).Err?;
    }
    if exists j :: 0 <= j < |s.fields| && CheckField(s, j, d.vals).Err? {
      var j :| 0 <= j < |s.fields| && CheckField(s, j, d.vals).Err?;
      VerdictAt(s, d.vals, j);
      assert !vs[j].Ok?;
      assert FieldErrors(s, d.vals).Err?;
    }
  }

  /** A key the hook does not set keeps its field entry. */
  lemma MergeOutside(fe: Errors, h: HookResult, k: string)
    requires k in fe && k !in HookKeys(h)
    ensures k in Merge(fe, h) && Merge(fe, h)[k] == fe[k]
  {
    if h.ErrorList? {
      LastForSome(h.pairs, k);
    }
  }

  /** With distinct field names, a failing field's entry after the field
      loop is its own message. */
  lemma FieldErrorsEntry(s: Schema, vals: map<string, Value>, fe: Errors, j: nat)
    requires UniqueNames(s)
    requires FieldErrors(s, vals) == Ok(fe)
    requires j < |s.fields| && CheckField(s, j, vals).Ok? && CheckField(s, j, vals).value.Fail?
    ensures s.fields[j].name in fe && fe[s.fields[j].name] == CheckField(s, j, vals).value.message
  {
    var vs := Verdicts(s, vals);
    var names := Names(s);
    CollectValues(names, vs, 0, map[], fe);
    VerdictAt(s, vals, j);
    assert vs[j].Ok? && vs[j].value.Fail?;
  }

  /** With distinct field names, a failing field whose name the hook does not
      set records its own message: the `Field.is_valid` error text for a
      plain field, `None` for a nested document. */
  lemma ValidateFieldEntry(s: Schema, d: Doc, fe: Errors, j: nat)
    requires UniqueNames(s)
    requires FieldErrors(s, d.vals) == Ok(fe)
    requires j < |s.fields| && CheckField(s, j, d.vals).Ok? && CheckField(s, j, d.vals).value.Fail?
    requires s.fields[j].name !in HookKeys(HookOf(s, d, fe))
    ensures Validate(s, d).Ok?
    ensures s.fields[j].name in Validate(s, d).value
    ensures Validate(s, d).value[s.fields[j].name] == CheckField(s, j, d.vals).value.message
    ensures s.fields[j].kind.NestedDoc? ==> Validate(s, d).value[s.fields[j].name] == None
    ensures !s.fields[j].kind.NestedDoc? ==>
              Validate(s, d).value[s.fields[j].name] == Some(Fields.IsValid(s.fields[j], Get(d.vals, s.fields[j].name)).error)
  {
    FieldErrorsEntry(s, d.vals, fe, j);
    MergeOutside(fe, HookOf(s, d, fe), s.fields[j].name);
    assert Validate(s, d).value == Merge(fe, HookOf(s, d, fe));
  }

  /** A required field (not a nested document) holding `None` or absent is
      always reported under its name, with the required message at the
      front when the hook does not overwrite it. */
  lemma RequiredFieldReported(s: Schema, d: Doc, fe: Errors, j: nat)
    requires FieldErrors(s, d.vals) == Ok(fe)
    requires j < |s.fields| && s.fields[j].required && !s.fields[j].kind.NestedDoc?
    requires Get(d.vals, s.fields[j].name) == VNone
    ensures Validate(s, d).Ok? && s.fields[j].name in Validate(s, d).value
    ensures UniqueNames(s) && s.fields[j].name !in HookKeys(HookOf(s, d, fe)) ==>
              Validate(s, d).value[s.fields[j].name] ==
                Some(Fields.RequiredMessage(s.fields[j]) + Fields.ValidatorMessage(s.fields[j], VNone))
  {
    ValidateKeys(s, d, fe);
    var vs := Verdicts(s, d.vals);
    VerdictAt(s, d.vals, j);
    Fields.RequiredNoneFails(s.fields[j]);
    assert s.fields[j].name in FailingFields(s, d.vals);
    if UniqueNames(s) && s.fields[j].name !in HookKeys(HookOf(s, d, fe)) {
      ValidateFieldEntry(s, d, fe, j);
    }
  }

  /** A single `(key, message)` from the hook is recorded as given; from a
      list, each key ends up with the message of its last pair. */
  lemma HookPairsRecorded(s: Schema, d: Doc, fe: Errors)
    requires FieldErrors(s, d.vals) == Ok(fe)
    ensures Validate(s, d).Ok?
    ensures HookOf(s, d, fe).ErrorPair? ==>
              Validate(s, d).value[HookOf(s, d, fe).key] == Some(HookOf(s, d, fe).message)
    ensures HookOf(s, d, fe).ErrorList? ==>
              forall k :: LastFor(HookOf(s, d, fe).pairs, k).Some? ==>
                k in Validate(s, d).value && Validate(s, d).value[k] == LastFor(HookOf(s, d, fe).pairs, k)
  {
  }

  /** A later pair with the same key overwrites an earlier one: the pair at
      `j`, with no later pair for its key, is the one recorded. */
  lemma HookLastPairWins(s: Schema, d: Doc, fe: Errors, j: nat)
    requires FieldErrors(s, d.vals) == Ok(fe)
    requires HookOf(s, d, fe).ErrorList? && j < |HookOf(s, d, fe).pairs|
    requires var ps := HookOf(s, d, fe).pairs;
             forall j' :: j < j' < |ps| ==> ps[j'].0 != ps[j].0
    ensures var ps := HookOf(s, d, fe).pairs;
            Validate(s, d).Ok? && ps[j].0 in Validate(s, d).value &&
            Validate(s, d).value[ps[j].0] == Some(ps[j].1)
  {
    LastForIsLast(HookOf(s, d, fe).pairs, j);
    HookPairsRecorded(s, d, fe);
  }

  /** With distinct field names, a field that passes is not in the errors
      unless the hook sets its name: supplying a value that satisfies the
      field removes its entry on re-validation. */
  lemma PassingFieldNotReported(s: Schema, d: Doc, fe: Errors, j: nat)
    requires UniqueNames(s)
    requires FieldErrors(s, d.vals) == Ok(fe)
    requires j < |s.fields| && CheckField(s, j, d.vals) == Ok(Pass)
    requires s.fields[j].name !in HookKeys(HookOf(s, d, fe))
    ensures Validate(s, d).Ok? && s.fields[j].name !in Validate(s, d).value
  {
    var vs := Verdicts(s, d.vals);
    var names := Names(s);
    VerdictAt(s, d.vals, j);
    assert vs[j] == Ok(Pass);
    forall i | 0 <= i < |vs| && vs[i].Ok? && vs[i].value.Fail?
      ensures names[i] != names[j]
    {
      VerdictAt(s, d.vals, i);
      assert i != j;
    }
    assert names[j] !in FailingFields(s, d.vals);
    ValidateKeys(s, d, fe);
  }

  /** Only nested-document fields can make validation raise: for a class
      without them, validation always produces an error map. */
  lemma OnlyNestedRaises(s: Schema, d: Doc)
    requires forall j :: 0 <= j < |s.fields| ==> !s.fields[j].kind.NestedDoc?
    ensures Validate(s, d).Ok? && FieldErrors(s, d.vals).Ok?
  {
    forall j | 0 <= j < |s.fields|
      ensures CheckField(s, j, d.vals).Ok?
    {
      assert !s.fields[j].kind.NestedDoc?;
    }
    ValidateRaises(s, d);
  }
}

=== FILE: values.dfy ===
/** Runtime values held by a document, and the document instance itself. */
module Values {
  import opened Wrappers

  /** A Python value as the mapper sees it. Floats, datetimes and any other
      objects are `VObj`, identified only by class name and truth value. */
  datatype Value =
    | VNone
    | VBool(b: bool)
    | VInt(i: int)
    | VStr(s: string)
    | VList(items: seq<Value>)
    | VTuple(elems: seq<Value>)
    | VDict(entries: map<string, Value>)
    | VDoc(doc: Doc)
    | VObj(cls: string, truthy: bool)

  /** The error map of a document: field name or hook key to message. A failing
      nested document records `None` (the nested field's `error` slot). */
  type Errors = map<string, Option<string>>

  /** A document instance: the class it belongs to, its value map (a `Doc` is a
      `dict`) and the errors of its last validation pass. */
  datatype Doc = Doc(kind: string, vals: map<string, Value>, errors: Errors)

  /** Python truthiness (`if x:`). A document is a dict, so it is truthy iff
      its value map is non-empty. */
  predicate Truthy(v: Value)
  {
    match v
    case VNone => false
    case VBool(b) => b
    case VInt(i) => i != 0
    case VStr(s) => |s| > 0
    case VList(xs) => |xs| > 0
    case VTuple(xs) => |xs| > 0
    case VDict(m) => |m| > 0
    case VDoc(d) => |d.vals| > 0
    case VObj(_, t) => t
  }

  /** `d.get(name, None)`: the value under `name`, or `None` when absent. */
  function Get(vals: map<string, Value>, name: string): Value
  {
    if name in vals then vals[name] else VNone
  }
}

=== FILE: wrappers.dfy ===
/** Failure-carrying datatypes used throughout the model. */
module Wrappers {

  /** A value that may be missing (Python's `None` where a value is optional). */
  datatype Option<+T> = None | Some(value: T)

  /** The outcome of an operation that may raise: a value or the exception raised. */
  datatype Result<+T, +E> = Ok(value: T) | Err(error: E)
}
